=== FILE: README.md ===
# Document QA bot: durable state and answer assembly, in Dafny

This project models the stateful core of a Streamlit document question-answering bot. Users upload
documents. The bot indexes them in FAISS vector stores, answers questions from retrieved chunks with a
chat model, keeps chat sessions on disk and shares frozen copies of them through tokens.

Every directory and cache is an immutable value. Every operation is a pure function from the old state
(and its inputs) to a result and the new state.

- `HistoryStore` (`app/history_store.py`): the `chat_histories` directory, as a map from file name
  (`<session id>.json`) to either a saved turn list or an unreadable file. It covers `load`, `save`,
  `clear`, `list_sessions`, `rename_session` and `delete_session`. The module wrappers
  `save_history`, `load_history`, `list_all_sessions` and `clear_history` run these same operations on
  the one global store, so they are not modelled separately.
- `ShareHandler` (`app/share_handler.py`): the `shared_chats` directory of `<token>.json` snapshots
  `{metadata: {chat_id}, messages}`, with minting and resolving. A token is a version-4 UUID in its
  canonical text form (section 4.4 of RFC 4122). It is passed in as a parameter and assumed not yet used.
- `SessionManager` (`app/session_manager.py`): the facade over both stores. `download_session`'s
  `json.dumps` is modelled as a JSON value, with a proved read-back.
- `DbHandler` (`app/db_handler.py`): the `vectorstore_manager` cache plus the `data/vectorstores`
  directory. The cache is a Python dict: it keeps insertion order, and reassigning a key keeps that
  key's place. Covers `get_vectorstore` and `store_chunks`, each twice. The code as written saves a
  folder `<name>` but probes `<name>.faiss` / `<name>.pkl`, and strips every `.faiss` from the default
  name (see "Findings"). The corrected versions save and load the `<name>.faiss` / `<name>.pkl` pair and
  strip only the extension. `App` and `QaPipeline` are built on the corrected versions.
- `QaPipeline` (`app/qa_pipeline.py`): `QAWrapper.ask`. It returns the fallback answer when there is no
  index. Otherwise it unwraps the answer from `.content` or `str()`, and reports the retrieved documents'
  `source` metadata (default `"Unknown"`) once each.
- `FileManager` (`app/file_manager.py`): the `uploaded` directory, as entry names with their kind (file
  or sub-directory).
- `App` (`app/main.py`): what the script itself does.
  - `sanitize_filename` and the extension dispatch.
  - Recording an asked question: the new turn goes first and the whole history is saved.
  - The uploaded-file list and upload processing.
  - The New Chat, Clear History, Rename, Delete and file-delete controls.
  - Opening a share link.

Library capabilities are function-valued parameters: the text splitter, the retriever, the chat model
and the text extractors. Because the embedding model is fixed, an index is fully described by its
documents. `os.listdir` order is a parameter `listing`, required to list each directory entry exactly
once. Timestamp ids (`datetime.now()`) and `uuid4` tokens are parameters. When a write or removal may
fail, a `WriteOutcome` / `RemoveOutcome` parameter says how that call went.

Apart from the two corrections under "Findings", the model follows the code as it stands. Some of its
behaviours are easy to misread:
- Without a name, `get_vectorstore` returns the first-inserted cached index, not an arbitrary one.
- A corrupt index pair is not treated as absent. `FAISS.load_local` raises and nothing catches it; see
  "Left out".
- An unknown share token resolves to `{}` (modelled as `None`).
- A name that is already in the session's upload list is never re-indexed.
- Every pass runs the session selector (main.py:79-83) before anything is shown. A current chat id
  without a stored file is replaced by the first listed session, or by `None` when there is none.
  This applies to a fresh start, to the pass after Delete, and to a share link whose session is gone.

## Model

| member | source | states |
|---|---|---|
| `HistoryStore.PathOf` | app/history_store.py:10-11 | a session's file name ends in `.json`, and dropping those five characters gives the id back |
| `HistoryStore.PathOfSessionOf` | app/history_store.py:37 | re-appending `.json` to the id taken from a `.json` name gives that name back |
| `HistoryStore.PathOfInjective` | app/history_store.py:10-11 | two sessions share a file exactly when they have the same id |
| `HistoryStore.Load` | app/history_store.py:13-18 | a readable file gives its turns; a missing or unreadable file gives `[]`; no error path |
| `HistoryStore.Save` | app/history_store.py:20-25 | a completed write is what `load` returns next; a failed open changes nothing; a dump that fails after the truncation leaves a file that loads as `[]`; other files are untouched; no error reaches the caller |
| `HistoryStore.Clear` | app/history_store.py:27-33 | after a successful removal the file is gone and the id loads `[]`; a missing file, or a removal that fails (the error is printed), leaves the directory unchanged; other files are untouched; no error path |
| `HistoryStore.DeleteSession` | app/history_store.py:47-48 | exactly the effect of `clear` |
| `HistoryStore.SessionIds` | app/history_store.py:36-39 | the ids recovered from a listing are exactly those whose `.json` name is in it, each once if the listing has no repeats |
| `HistoryStore.ListSessions` | app/history_store.py:35-39 | an id is listed exactly when its `.json` file exists (readable or not), and no id is listed twice |
| `HistoryStore.Move` | app/history_store.py:45 | POSIX rename: the target now holds the source's content and replaces any old target, the source name is gone unless it equals the target, and other names are unchanged |
| `HistoryStore.RenameSession` | app/history_store.py:41-45 | with `old` present, `new` loads old's turns and `old` loads `[]`; with `old` absent nothing changes; every other session loads as before |
| `HistoryStore.SaveThenLoad` | app/history_store.py:20-23 | save then load gives the saved turns back, and every other session loads as before |
| `HistoryStore.SaveOverwrites` | app/history_store.py:22 | the second of two successful saves wins outright |
| `HistoryStore.ClearIdempotent` | app/history_store.py:27-31 | clearing again after a successful clear changes nothing, whatever the second removal would do |
| `HistoryStore.ClearThenList` | app/history_store.py:27-39 | after a clear the id loads `[]` and is no longer listed |
| `HistoryStore.RenameNoOps` | app/history_store.py:44 | renaming a missing session, or a session onto itself, leaves the directory as it was |
| `HistoryStore.RenameThenList` | app/history_store.py:41-45 | after a rename of a present session, `new` is listed, `old` is not, and every other id is listed as before |
| `ShareHandler.PathOf` | app/share_handler.py:11-12 | a share's file name ends in `.json` |
| `ShareHandler.PathOfInjective` | app/share_handler.py:11-12 | two tokens share a file exactly when they are equal |
| `ShareHandler.Resolve` | app/share_handler.py:30-36 | a snapshot comes back exactly when the token's file exists and is readable, and it is the stored one; otherwise `{}`; no error path |
| `ShareHandler.ShareChatHistory` | app/share_handler.py:14-28 | the returned token is the drawn one; it resolves to `{chat_id, messages}`, taking the session's stored history when no messages are passed; exactly one file is added and every other token resolves as before |
| `ShareHandler.Uuid4IsPlainName` | app/share_handler.py:19 | a UUID-4 token holds no `/` or `.`, so its file stays inside the share directory |
| `ShareHandler.SharesAccumulate` | app/share_handler.py:14-28 | a second share uses a different token and leaves the first snapshot resolvable and unchanged |
| `SessionManager.StringsRoundTrip` | app/session_manager.py:20 | a serialised list of sources reads back as the same list |
| `SessionManager.ItemsRoundTrip` | app/session_manager.py:20 | the serialised turns read back one by one as the same turns |
| `SessionManager.HistoryRoundTrip` | app/session_manager.py:18-20 | the downloaded JSON document reads back as exactly the history it was made from |
| `SessionManager.ListSessions` | app/session_manager.py:6-7 | equals the history store's listing |
| `SessionManager.RenameSession` | app/session_manager.py:10-11 | exactly the history store's rename; the share directory is untouched |
| `SessionManager.DeleteSession` | app/session_manager.py:14-15 | exactly the history store's delete; the share directory is untouched |
| `SessionManager.DownloadSession` | app/session_manager.py:18-20 | the document reads back as the session's stored history; nothing is written |
| `SessionManager.GenerateShareLink` | app/session_manager.py:23-25 | the token is new and resolves to `chat_id` = the session and `messages` = its history at call time; histories are untouched; other tokens resolve as before |
| `SessionManager.HistoryOpsKeepShares` | app/session_manager.py:10-15 | no sequence of saves, clears, renames or deletes changes the share directory |
| `SessionManager.SnapshotIsFrozen` | app/share_handler.py:20-26 | after any later saves, clears, renames or deletes, a shared token still resolves to the history as it was at share time |
| `SessionManager.ShareButtonMatchesFacade` | app/share_handler.py:14-17 | sharing with no messages, which loads them internally, writes the same snapshot as the facade, which loads them first |
| `DbHandler.GrowsKeepsFirst` | app/db_handler.py:27 | once an index is cached, the first-inserted name never changes |
| `DbHandler.Put` | app/db_handler.py:42 | assigning a cache key stores the index under it and leaves others unchanged; a new key goes last, an existing key keeps its place, and no key is removed |
| `DbHandler.Restart` | app/db_handler.py:15 | a new process starts with an empty cache and the same directory |
| `DbHandler.Lookup` | app/db_handler.py:34-45 | a cached name gives its index and changes nothing, disk included; an uncached name with both files gives the loaded `.pkl` index and caches it; otherwise `None` and nothing changes |
| `DbHandler.FirstFaiss` | app/db_handler.py:28-29 | the first `.faiss` entry in listing order, or `None` exactly when the listing has no `.faiss` entry |
| `DbHandler.DefaultName` | app/db_handler.py:28-32 | the fallback name, if any, is the one whose `.faiss` file is the listing's first `.faiss` entry |
| `DbHandler.GetVectorstore` | app/db_handler.py:24-45 | with a name it is the named lookup. Without a name and with a non-empty cache, it gives the first-inserted entry and changes nothing. Without a name and with an empty cache, it is the named lookup of the first `.faiss` entry's name without its extension, or `None` with nothing changed when there is no `.faiss` entry; so it finds something exactly when that entry's pair is complete. The directory never changes, and cache keys are never removed or reordered |
| `DbHandler.ChunkDocuments` | app/db_handler.py:58 | one document per chunk, in order, each with metadata exactly `{"source": file_name}` |
| `DbHandler.BuildIndex` | app/db_handler.py:47-60 | an index is built exactly when the text is not blank and the splitter yields at least one chunk; it is then the chunk documents in order, each with source `file_name` |
| `DbHandler.NoChunksIsNoOp` | app/db_handler.py:58-60 | text the splitter turns into no chunks touches neither the cache nor the directory |
| `DbHandler.StoreChunks` | app/db_handler.py:47-68 | blank text, or text that yields no chunks, changes nothing. Otherwise the new index is cached under `file_name` and written as both of its files, replacing any earlier one. Every other file and cache entry is unchanged, and no cache key is lost |
| `DbHandler.BlankTextIsNoOp` | app/db_handler.py:49-50 | whitespace-only text touches neither the cache nor the directory |
| `DbHandler.StoreChunksIdempotent` | app/db_handler.py:47-68 | building the same text under the same name twice gives the same state as building it once |
| `DbHandler.StoreKeepsCoherent` | app/db_handler.py:63-68 | if every cached index equals its pair on disk before a build, the same holds after it |
| `DbHandler.GetKeepsCoherent` | app/db_handler.py:34-43 | lookups keep every cached index equal to its pair on disk |
| `DbHandler.RestartInvisibleToNamedLookup` | app/db_handler.py:34-45 | in a coherent state, a named lookup after a restart finds the same index as before it |
| `DbHandler.StoreRestartGet` | app/db_handler.py:34-68 | store, restart, then look up by name: the result is the index that was built |
| `DbHandler.DefaultLooksAtFirstFaissOnly` | app/db_handler.py:28-45 | with an empty cache, if the first `.faiss` file has no `.pkl`, the no-name lookup returns `None` even when another complete pair exists |
| `DbHandler.DefaultNameIsStable` | app/db_handler.py:25-27 | with a non-empty cache, later builds and lookups keep the same first-inserted name |
| `DbHandler.StoreChunksAsWritten` | app/db_handler.py:62-68 | as written, the cache changes as in the corrected store, but the directory gains one entry, the folder `<name>` holding the index (the pair `index.faiss` / `index.pkl` lies inside it); for the empty name the pair lands in the vectorstore directory itself. Blank or chunkless text changes nothing, and other entries are kept |
| `DbHandler.StoredIndexLostAfterRestart` | app/db_handler.py:37-38 | as written, when no `<name>.faiss` existed before, a stored index is found while cached but not after a restart, because the probe looks for `<name>.faiss` |
| `DbHandler.NoPklFindsNothing` | app/db_handler.py:24-45 | with an empty cache and no `.pkl` entry in the directory, every lookup, named or not, as written or corrected, returns `None` and changes nothing |
| `DbHandler.AsWrittenStoreLostAfterRestart` | app/db_handler.py:24-68 | as written, storing a document (non-empty name, not ending in `.pkl`) into a directory without `.pkl` entries keeps it without them, so after a restart every lookup, named or not, returns `None` |
| `DbHandler.DefaultNameAsWritten` | app/db_handler.py:30 | as written, there is a fallback name exactly when the listing has a `.faiss` entry |
| `DbHandler.GetVectorstoreAsWritten` | app/db_handler.py:24-45 | as written, it differs from the corrected lookup only in the no-name, empty-cache case |
| `DbHandler.InnerFaissBreaksDefault` | app/db_handler.py:30 | with the pair `x.faiss.faiss` / `x.faiss.pkl` (document `x.faiss` in the corrected layout), the fallback as written probes `x` and finds nothing; the corrected fallback finds the index |
| `Text.StripEmptyIffBlank` | app/db_handler.py:49 | `text.strip()` is empty exactly when every character is Python whitespace |
| `Text.Dedup` | app/qa_pipeline.py:60 | the result has no repeats and holds exactly the input's elements |
| `Text.DedupConstant` | app/qa_pipeline.py:60 | deduplicating a non-empty run of one value leaves that value once |
| `Text.AfterLastDot` | app/main.py:132 | the result has no `.`, is a suffix of the name, and is either the whole name or comes right after a `.` |
| `Text.DropSuffix` | app/history_store.py:37 | `f[:-5]`: the result followed by the suffix is the original |
| `QaPipeline.Ask` | app/qa_pipeline.py:32-65 | both keys are always present, and the cache changes only as the no-name lookup changes it. With no index it gives the fixed warning and no sources. Otherwise the answer is the model reply's `.content` or `str()`, and the sources have no repeats and are exactly the retrieved documents' `source` values, with `"Unknown"` where one is missing |
| `QaPipeline.BuiltDocsReportName` | app/qa_pipeline.py:60 | every document of an index built for `file_name` reports `file_name` as its source |
| `QaPipeline.AskAfterFirstStore` | app/qa_pipeline.py:33-60 | in a fresh process, after indexing one document, asking with any chunk retrieved reports exactly that document's name as the sources |
| `QaPipeline.AskWithoutIndex` | app/qa_pipeline.py:33-38 | with nothing cached and no `.faiss` file, asking returns the fixed warning with `sources == []` and changes nothing |
| `QaPipeline.AskAfterRestartAsWritten` | app/qa_pipeline.py:33-38 | with the save as written, a question asked after a restart gets the fixed warning although a document was indexed before it |
| `FileManager.RegularFiles` | app/file_manager.py:9 | keeps exactly the listing's regular-file entries, without repeats when the listing has none |
| `FileManager.ListUploadedFiles` | app/file_manager.py:8-9 | exactly the directory's regular files, each once |
| `FileManager.DeleteUploadedFile` | app/file_manager.py:12-17 | `True` exactly when the name existed, and afterwards it is gone with nothing else changed; `""`, `.`, `..` (which exist as directories) and a sub-directory raise |
| `FileManager.SaveUploadedFile` | app/file_manager.py:20-25 | returns the uploaded name unchanged (not sanitised), which is then a regular file; other entries are unchanged; `""`, `.`, `..` and a sub-directory raise |
| `FileManager.DeleteAbsentIsNoOp` | app/file_manager.py:14-17 | deleting a name that is no entry returns `False` and changes nothing, except `""`, `.` and `..`, which exist as directories, so `os.remove` raises |
| `FileManager.SaveListDelete` | app/file_manager.py:8-25 | for a name that does not denote a directory (so not `""`, `.` or `..`), a saved upload is listed; deleting it returns `True` and restores the directory without that name, which is then not listed |
| `App.SanitizeFilename` | app/main.py:119-120 | keeps the length; each reserved character (`\ / * ? : " < > |` or NUL) becomes `_` and every other character stays in place |
| `App.SanitizedIsSafe` | app/main.py:120 | no reserved character is left in the output |
| `App.SanitizeFixesExactlySafeNames` | app/main.py:120 | a name is unchanged exactly when it contains no reserved character |
| `App.SanitizeIdempotent` | app/main.py:120 | sanitising twice is sanitising once |
| `App.Extension` | app/main.py:132 | the extension never contains a `.` |
| `App.KindOf` | app/main.py:134-147 | `pdf`, `docx` and `txt` select their own branch, `png`/`jpg`/`jpeg` the OCR branch, and every extension outside those six selects the `else` branch |
| `App.ExtractText` | app/main.py:134-147 | an extension outside `pdf docx txt png jpg jpeg` yields `""`; one of the six yields the text of its branch's extractor |
| `App.ExtensionAfterLastDot` | app/main.py:132 | for `base.ext` with `ext` free of dots, the extension is `ext` lower-cased |
| `App.ExtensionWithoutDot` | app/main.py:132 | a name without a dot is its own extension, lower-cased |
| `App.StartSession` | app/main.py:24-47 | what lines 24-47 assign before the selector runs: a resolvable share link's chat id and messages, otherwise a new id with its stored history; the upload list starts empty |
| `App.TurnOf` | app/main.py:160-164 | a missing `answer` becomes `"No answer found."` and missing `sources` become `[]`; present keys are copied |
| `App.RecordTurn` | app/main.py:157-165 | an empty question does nothing. Otherwise exactly one turn is put at index 0, the old turns follow unchanged, the id is kept, and the whole list is saved under the current `chat_id` and loads back after a successful write |
| `App.AskAndRecord` | app/main.py:156-165 | the recorded turn holds the pipeline's answer and sources in front of the old history; the chat id and upload list are kept and the new history is saved under that chat id; the cache follows the pipeline's lookup; an empty question calls nothing |
| `App.NewChat` | app/main.py:67-71 | switches to the fresh id with an empty history; the only write is `[]` saved under the fresh id, so the directory gains at most that file; after a successful write it loads `[]`; other sessions load as before |
| `App.ClearHistory` | app/main.py:73-76 | empties the in-memory history and keeps the id; the only write is `[]` saved under that id, so the directory gains at most that file; after a successful write it exists and loads `[]`; other sessions load as before |
| `App.NewChatThenList` | app/main.py:67-71 | after New Chat's write the fresh id is listed at once, and every other id is listed exactly as before |
| `App.ClearHistoryThenList` | app/main.py:73-76 | unlike `clear`, Clear History keeps the current id listed (loading `[]`), and every other id is listed exactly as before |
| `App.RenameCurrent` | app/main.py:88-91 | the stored session is renamed as by the store and the current id becomes the new name; a present session's turns load under the new name |
| `App.DeleteCurrent` | app/main.py:93-97 | what lines 93-96 assign: after a successful removal the session's file is gone and it loads `[]`; a failed removal changes nothing; no file is ever added and every other session loads as before; the UI gets a fresh, unsaved id with an empty history, which the selector replaces on the next pass (`DeleteThenSettle`) |
| `App.IndexOf` | app/main.py:80 | `session_list.index(chat_id)`: the position of the first occurrence |
| `App.DefaultSelection` | app/main.py:79-80 | the selectbox left alone gives the current id when it is listed, the first listed session when it is not, and `None` exactly when no session is listed |
| `App.FollowSelection` | app/main.py:81-83 | a selection equal to the current id changes nothing; any other becomes the current id with its history loaded from disk; `None` becomes the id `None` |
| `App.SettleSession` | app/main.py:79-83 | a current id with a stored file is kept with its in-memory history; otherwise the pass moves to the first listed session and its stored history, or to `None` with `[]` when no session exists; afterwards the current id has a file exactly when some session exists |
| `App.ProcessUpload` | app/main.py:123-149 | the sanitised name is written as a regular file and is in the list, and no other entry of the upload directory changes. A name already listed is not re-indexed. A new name is appended once and indexed with the text extracted for its extension. Histories, chat id and in-memory history are untouched. The write raises exactly when the sanitised name is `""`, `.`, `..` or names a sub-directory |
| `App.ProcessUploads` | app/main.py:123-149 | names listed before the pass stay listed, the list keeps no repeats, and histories, chat id and in-memory history are untouched. Without an error every upload's sanitised name is listed. With an error there is an upload `k` whose name denotes a directory, and every upload before `k` is listed in the state returned with the error |
| `App.ProcessUploadsAppend` | app/main.py:123-149 | the loop over `a + b` is the loop over `a`, then, unless that raised, the loop over `b` from the state `a` reached: a raising write keeps the effects of the uploads before it |
| `App.EarlierUploadSurvivesError` | app/main.py:123-149 | when a file upload is followed by one whose name is a directory, the pass returns the error together with the state after the first upload, which stays listed |
| `App.RemoveFirst` | app/main.py:62 | for a name in the list, the result is the list with its first occurrence cut out, order kept; on a repeat-free list the name is then absent and there are still no repeats |
| `App.RemoveSelected` | app/main.py:58-65 | `"None"` selects nothing. An existing regular file is removed from both the directory and the list. Any other choice (including `.` and `..`) makes `os.remove` raise, and then nothing changes. Other names stay listed, and every other entry of the upload directory is unchanged; the chat id and in-memory history are untouched |
| `App.UploadThenRemove` | app/main.py:58-65 | uploading a new file and deleting it with the radio gives the upload list back and leaves the directory without that name; the index built for it stays; a file named `None` cannot be deleted that way |
| `App.AskRecordsPipelineAnswer` | app/main.py:159-165 | the defaults never apply to the pipeline's dict: the stored first turn holds its answer and sources, and the saved file loads as the in-memory history |
| `App.UnsupportedUploadIndexesNothing` | app/main.py:146-149 | an upload whose extension is not one of `pdf docx txt png jpg jpeg` yields `""`, so nothing is indexed |
| `App.SecondUploadNotReindexed` | app/main.py:130-131 | when the upload's name does not denote a directory, processing it a second time succeeds and leaves the list and the index state unchanged |
| `App.OpenSharedLink` | app/main.py:24-44 | what lines 24-44 assign for a minted link opened after any later history operations: the original chat id and the history at share time |
| `App.OpenSharedLinkSettles` | app/main.py:24-83 | after the selector: while the shared session still has a file, the pass ends on the snapshot's chat id and share-time history; once it is gone, on the first listed session, which is a different one |
| `App.FreshStartSettles` | app/main.py:33-83 | without a share link, a fresh id that has no file yet gives way to the first listed session, or to `None` with `[]` when none exists |
| `App.DeleteThenSettle` | app/main.py:79-97 | after a successful Delete and the rerun, the deleted id is no longer listed and the pass lands on the first session still listed, or on `None` with `[]` |
| `App.SharedViewerWritesOwnerSession` | app/main.py:33-165 | a share-link viewer asks in the session the selector settled on: while the owner's session has a file, that is the snapshot's `chat_id` (line 36) and the owner's session becomes the new turn followed by the snapshot; otherwise the turn goes in front of the first listed session's stored history |

## Left out

- Text splitting (`RecursiveCharacterTextSplitter`), the HuggingFace embeddings and FAISS similarity
  search are library code with floating-point arithmetic. They appear as the parameters `split` and
  `retrieve`. The retriever is assumed deterministic, so the documents `ask` reports are the ones given
  to the chat model.
- `ChatOllama` generation and the `PromptTemplate` filling are a foreign call, the parameter `llm`.
  `get_pipeline` only binds a fresh chat model to `ask`; passing `llm` to `QaPipeline.Ask` stands for it.
- `app/document_processor.py` (pdfplumber, python-docx, pytesseract, PyMuPDF, image writing) and
  `app/chat_utils.py` (FPDF export, base64 link) are not part of this model. main.py's own extractors
  are the parameter `extract`.
- Streamlit widgets and rendering are not modelled: the share-URL string, and the download button of
  main.py (which serialises the in-memory history). The session selector is modelled only as left alone
  by the user; picking another session by hand is user input.
- `datetime.now()` ids and `uuid.uuid4()` tokens are supplied as parameters.
- JSON bytes (indentation, `ensure_ascii`) are abstracted to values. A file with valid JSON of another
  shape is not modelled: a history file that is not a turn list, or a share file that is not a snapshot.
  Such files are either of the expected shape or unreadable.
- Some OS errors the code does not catch are not modelled: `os.rename` in `rename_session`, the write in
  `share_chat_history`, `save_local` in `store_chunks`, and `FAISS.load_local` on a corrupt pair. These
  raise in the program; the model has no such failure path.
- DbHandler.Lookup: loads the index from the probed `<name>.faiss` / `<name>.pkl` pair, the layout of the
  first finding's correction. As written, `FAISS.load_local(path)` reads `path/index.faiss` and
  `path/index.pkl`. So the correction must also give `index_name=file_name` to `load_local`, not only to
  `save_local`.
- App.ProcessUpload: indexes through the corrected `DbHandler.StoreChunks` of the first finding, which
  writes the pair `<name>.faiss` / `<name>.pkl`. As written, main.py:149 reaches `save_local(path)`
  (db_handler.py:67), which adds only the folder `<name>`; `DbHandler.StoreChunksAsWritten` models that
  save and `DbHandler.AsWrittenStoreLostAfterRestart` its consequence. `App.ProcessUploads` inherits this.
- App.ProcessUpload: the text extractors (pdfplumber, python-docx, pytesseract and the UTF-8 `read` of
  main.py:134-145) and the embedding in `FAISS.from_documents` (db_handler.py:63) are total functions
  here. In the program their exceptions propagate uncaught and end the pass. By then the name has been
  appended at main.py:131, so it stays listed and is never indexed on later passes. The model has no
  such path.
- App.FollowSelection: when no session exists the selectbox gives `None` and `chat_id` becomes `None`.
  The model uses the id `"None"`, which names the same file `None.json` in every history-store call. It
  differs only when a real session named `None` exists while `chat_id` is `None`: the program then
  reloads that session's history, where the model keeps the in-memory one.
- Names containing path separators, or absolute names, are not modelled: every name is one entry of its
  directory.
- Text.AsciiLower: lower-cases `A`-`Z` only, where Python's `str.lower` also maps other letters. No
  non-ASCII character lowers to a letter of `pdf`, `docx`, `txt`, `png`, `jpg` or `jpeg`, so the kind an
  upload dispatches to is unaffected. The extension text itself can differ for non-ASCII names.
- QaPipeline.Ask: looks up through the corrected `DbHandler.GetVectorstore`, whose default name drops
  only the trailing `.faiss` (second finding), on the corrected directory layout (first finding). As
  written, db_handler.py:30 strips every `.faiss`; `DbHandler.GetVectorstoreAsWritten` models that, and
  `QaPipeline.AskAfterRestartAsWritten` states what `ask` answers after a restart with the save as
  written. `App.AskAndRecord` inherits this.
- QaPipeline.Ask: the retriever and `chain.invoke` (qa_pipeline.py:51-53) are total functions here. In
  the program an exception from either propagates out of `ask` uncaught.
- QaPipeline.Ask: the order of `sources` is Python's set iteration order, which is unspecified. The
  model lists first occurrences, and its contract claims only no repeats and the exact set.
- Timing prints, the GPU/CPU choice, and main.py's unused `vectorstores` directory are left out.
  Nothing runs concurrently.

## Findings

| source | as written | input that shows it | evidently intended | confidence | as-written member | corrected member |
|---|---|---|---|---|---|---|
| app/db_handler.py:66-67 | `vs.save_local(path)` treats `path` as a folder and writes `path/index.faiss` and `path/index.pkl`, but lines 37-38 probe `path + ".faiss"` and `path + ".pkl"` | `store_chunks("doc.pdf", text)` with non-blank text, then a process restart, then `get_vectorstore("doc.pdf")`: the result is `None`; `get_vectorstore()` and `ask` find nothing either, because the directory's only new entry is the folder `doc.pdf` (`DbHandler.AsWrittenStoreLostAfterRestart`, `QaPipeline.AskAfterRestartAsWritten`) | the pair saved and loaded as `<name>.faiss` / `<name>.pkl` in the vectorstore directory, as the probes at lines 28 and 37-38 expect: `save_local` and `load_local` both given the vectorstore directory and `index_name=file_name` | not executed; rests on LangChain's `FAISS.save_local` folder layout | `DbHandler.StoredIndexLostAfterRestart` | `DbHandler.StoreRestartGet` |
| app/db_handler.py:30 | `files[0].replace(".faiss", "")` removes every `.faiss` in the name, not only the extension | once the first finding is corrected, so that document `x.faiss` is saved as the pair `x.faiss.faiss` / `x.faiss.pkl`: with an empty cache and that pair alone, `get_vectorstore()` probes `x.faiss` / `x.pkl` and returns `None` | drop only the trailing `.faiss` | not executed | `DbHandler.InnerFaissBreaksDefault` | `DbHandler.DefaultName` |

=== FILE: db_handler.dfy ===
/**
 * The vector-index store: an in-memory cache `vectorstore_manager` (a Python
 * dict, so insertion-ordered) in front of the `data/vectorstores` directory,
 * where, in the corrected layout, each document name has a `<name>.faiss` /
 * `<name>.pkl` pair. The code as written, which saves a folder `<name>` and
 * strips every `.faiss` from the default name, is modelled at the end.
 *
 * The embedding model is fixed, so an index is determined by its documents;
 * FAISS similarity search and the text splitter are library code and appear
 * as function parameters.
 */
module DbHandler {
  import opened Wrappers
  import opened Text

  /** A LangChain `Document`: chunk text plus metadata. */
  datatype Document = Document(content: string, metadata: map<string, string>)

  /** A FAISS vector store, identified by the documents it embeds. */
  datatype Index = Index(docs: seq<Document>)

  const SourceKey := "source"
  const FaissExt := ".faiss"
  const PklExt := ".pkl"

  /**
   * `vectorstore_manager`: `order` is the dict's insertion order and
   * `entries` its contents.
   */
  datatype Cache = Cache(order: seq<string>, entries: map<string, Index>) {
    predicate Valid() {
      && Distinct(order)
      && (forall n | n in order :: n in entries)
      && (forall n | n in entries :: n in order)
    }
  }

  const EmptyCache := Cache([], map[])

  /** Keys are never removed and keep their position; new keys only go at the end. */
  predicate Grows(c: Cache, r: Cache) {
    |c.order| <= |r.order| && r.order[..|c.order|] == c.order
  }

  lemma GrowsTransitive(a: Cache, b: Cache, c: Cache)
    requires Grows(a, b) && Grows(b, c)
    ensures Grows(a, c)
  {
    assert c.order[..|a.order|] == c.order[..|b.order|][..|a.order|];
  }

  /** Once some index is cached, the first-inserted name stays first for good. */
  lemma GrowsKeepsFirst(c: Cache, r: Cache)
    requires Grows(c, r) && |c.order| > 0
    ensures r.order[0] == c.order[0]
  {
    assert r.order[..|c.order|][0] == r.order[0];
  }

  /** `vectorstore_manager[name] = idx`: an existing key keeps its place in the order. */
  function Put(c: Cache, name: string, idx: Index): (r: Cache)
    requires c.Valid()
    ensures r.Valid() && Grows(c, r)
    ensures name in r.entries && r.entries[name] == idx
    ensures forall n :: n != name ==> (n in r.entries <==> n in c.entries)
    ensures forall n :: n != name && n in c.entries ==> r.entries[n] == c.entries[n]
    ensures name in c.entries ==> r.order == c.order
  {
    if name in c.entries then c.(entries := c.entries[name := idx])
    else
      var r := Cache(c.order + [name], c.entries[name := idx]);
      assert r.order[..|c.order|] == c.order;
      r
  }

  /**
   * The `data/vectorstores` directory: entry name to the index whose save
   * wrote it (a file of a pair or, for the save as written, a folder).
   */
  type Disk = map<string, Index>

  datatype State = State(cache: Cache, disk: Disk)

  function FaissFile(name: string): string { name + FaissExt }
  function PklFile(name: string): string { name + PklExt }

  lemma FileNamesDistinct(a: string, b: string)
    ensures FaissFile(a) != PklFile(b)
    ensures FaissFile(a) == FaissFile(b) <==> a == b
    ensures PklFile(a) == PklFile(b) <==> a == b
  {
    assert FaissFile(a)[|FaissFile(a)| - 1] == 's';
    assert PklFile(b)[|PklFile(b)| - 1] == 'l';
    if FaissFile(a) == FaissFile(b) { AppendInjective(a, b, FaissExt); }
    if PklFile(a) == PklFile(b) { AppendInjective(a, b, PklExt); }
  }

  /** Both files of the pair exist, so `FAISS.load_local` is attempted. */
  predicate OnDisk(disk: Disk, name: string) {
    FaissFile(name) in disk && PklFile(name) in disk
  }

  /** Every cached index is the one its name's pair on disk holds. */
  predicate Coherent(s: State) {
    forall n | n in s.cache.entries :: OnDisk(s.disk, n) && s.disk[PklFile(n)] == s.cache.entries[n]
  }

  /** A process restart: the cache starts empty, the directory stays. */
  function Restart(s: State): (r: State)
    ensures r.cache.Valid() && r.disk == s.disk && |r.cache.order| == 0
  {
    State(EmptyCache, s.disk)
  }

  /**
   * `get_vectorstore` once a name is fixed: the cached index, else the index
   * loaded from a complete pair (and cached), else `None`.
   */
  function Lookup(s: State, name: string): (r: (Option<Index>, State))
    requires s.cache.Valid()
    ensures r.1.cache.Valid() && r.1.disk == s.disk && Grows(s.cache, r.1.cache)
    ensures r.0.Some? <==> name in s.cache.entries || OnDisk(s.disk, name)
    ensures r.0.Some? ==> name in r.1.cache.entries && r.1.cache.entries[name] == r.0.value
    ensures name in s.cache.entries ==> r.1 == s && r.0 == Some(s.cache.entries[name])
    ensures name !in s.cache.entries && OnDisk(s.disk, name) ==> r.0 == Some(s.disk[PklFile(name)])
    ensures r.0.None? ==> r.1 == s
    ensures forall n :: n != name ==> (n in r.1.cache.entries <==> n in s.cache.entries)
    ensures forall n :: n != name && n in s.cache.entries ==> r.1.cache.entries[n] == s.cache.entries[n]
  {
    if name in s.cache.entries then (Some(s.cache.entries[name]), s)
    else if OnDisk(s.disk, name) then
      var idx := s.disk[PklFile(name)];
      (Some(idx), s.(cache := Put(s.cache, name, idx)))
    else (None, s)
  }

  /** The first entry of the listing whose name ends in `.faiss`. */
  function FirstFaiss(listing: seq<string>): (r: Option<string>)
    ensures r.None? <==> forall f | f in listing :: !EndsWith(f, FaissExt)
    ensures r.Some? ==> EndsWith(r.value, FaissExt)
    ensures r.Some? ==> exists i :: (0 <= i < |listing| && listing[i] == r.value
      && forall j :: 0 <= j < i ==> !EndsWith(listing[j], FaissExt))
    decreases |listing|
  {
    if |listing| == 0 then None
    else if EndsWith(listing[0], FaissExt) then
      Some(listing[0])
    else
      var r := FirstFaiss(listing[1..]);
      assert forall f :: f in listing <==> f == listing[0] || f in listing[1..];
      if r.Some? then
        var i :| 0 <= i < |listing[1..]| && listing[1..][i] == r.value
          && forall j :: 0 <= j < i ==> !EndsWith(listing[1..][j], FaissExt);
        assert listing[i + 1] == r.value;
        assert forall j :: 0 <= j < i + 1 ==> !EndsWith(listing[j], FaissExt) by {
          forall j | 0 <= j < i + 1 ensures !EndsWith(listing[j], FaissExt) {
            if j > 0 { assert listing[j] == listing[1..][j - 1]; }
          }
        }
        r
      else r
  }

  /**
   * The name the no-argument lookup falls back to: the first `.faiss` file
   * of the listing, with the extension dropped from its end.
   */
  function DefaultName(listing: seq<string>): (r: Option<string>)
    ensures r.None? <==> forall f | f in listing :: !EndsWith(f, FaissExt)
    ensures r.Some? ==> FirstFaiss(listing) == Some(FaissFile(r.value))
  {
    match FirstFaiss(listing)
    case None => None
    case Some(f) => Some(DropSuffix(f, FaissExt))
  }

  predicate NoName(fileName: Option<string>) {
    fileName.None? || fileName.value == ""
  }

  /**
   * `get_vectorstore(file_name)`. With no name (None or ""): the first
   * cached index if the cache is non-empty, else the pair of the first
   * `.faiss` file in directory order, if complete.
   */
  function GetVectorstore(s: State, fileName: Option<string>, listing: seq<string>): (r: (Option<Index>, State))
    requires s.cache.Valid() && Enumerates(listing, s.disk.Keys)
    ensures r.1.cache.Valid() && r.1.disk == s.disk && Grows(s.cache, r.1.cache)
    ensures !NoName(fileName) ==> r == Lookup(s, fileName.value)
    ensures NoName(fileName) && |s.cache.order| > 0 ==> r == (Some(s.cache.entries[s.cache.order[0]]), s)
    ensures NoName(fileName) && |s.cache.order| == 0 ==>
      (r.0.Some? <==> DefaultName(listing).Some? && OnDisk(s.disk, DefaultName(listing).value))
    ensures NoName(fileName) && |s.cache.order| == 0 && DefaultName(listing).Some? ==>
      r == Lookup(s, DefaultName(listing).value)
    ensures NoName(fileName) && |s.cache.order| == 0 && DefaultName(listing).None? ==> r == (None, s)
  {
    if NoName(fileName) then
      if |s.cache.order| > 0 then (Some(s.cache.entries[s.cache.order[0]]), s)
      else
        match DefaultName(listing)
        case None => (None, s)
        case Some(n) => Lookup(s, n)
    else Lookup(s, fileName.value)
  }

  /** `splitter.create_documents([text], metadatas=[{"source": file_name}])` given the chunks. */
  function ChunkDocuments(fileName: string, chunks: seq<string>): (docs: seq<Document>)
    ensures |docs| == |chunks|
    ensures forall i :: 0 <= i < |docs| ==> docs[i].content == chunks[i]
    ensures forall i :: 0 <= i < |docs| ==> docs[i].metadata == map[SourceKey := fileName]
  {
    seq(|chunks|, i requires 0 <= i < |chunks| => Document(chunks[i], map[SourceKey := fileName]))
  }

  /** The index `store_chunks` builds, or `None` when it returns early. */
  function BuildIndex(fileName: string, text: string, split: string -> seq<string>): (r: Option<Index>)
    ensures r.Some? <==> !IsBlank(text) && |split(text)| > 0
    ensures r.Some? ==> r.value == Index(ChunkDocuments(fileName, split(text)))
    ensures r.Some? ==> |r.value.docs| > 0
    ensures r.Some? ==> forall d | d in r.value.docs :: d.metadata == map[SourceKey := fileName]
  {
    StripEmptyIffBlank(text);
    if Strip(text) == [] then None
    else
      var docs := ChunkDocuments(fileName, split(text));
      if |docs| == 0 then None else Some(Index(docs))
  }

  /**
   * `store_chunks`: build a fresh index of `text`, save it as
   * `<file_name>.faiss` / `<file_name>.pkl` and cache it under `file_name`,
   * replacing any previous index of that name. Blank text, or text the
   * splitter turns into no chunks, changes nothing.
   */
  function StoreChunks(s: State, fileName: string, text: string, split: string -> seq<string>): (r: State)
    requires s.cache.Valid()
    ensures r.cache.Valid() && Grows(s.cache, r.cache)
    ensures BuildIndex(fileName, text, split).None? ==> r == s
    ensures BuildIndex(fileName, text, split).Some? ==>
      var idx := BuildIndex(fileName, text, split).value;
      && fileName in r.cache.entries && r.cache.entries[fileName] == idx
      && OnDisk(r.disk, fileName) && r.disk[FaissFile(fileName)] == idx && r.disk[PklFile(fileName)] == idx
    ensures forall f :: f != FaissFile(fileName) && f != PklFile(fileName) ==>
      (f in r.disk <==> f in s.disk) && (f in s.disk ==> r.disk[f] == s.disk[f])
    ensures forall n :: n != fileName ==> (n in r.cache.entries <==> n in s.cache.entries)
    ensures forall n :: n != fileName && n in s.cache.entries ==> r.cache.entries[n] == s.cache.entries[n]
  {
    match BuildIndex(fileName, text, split)
    case None => s
    case Some(idx) =>
      State(Put(s.cache, fileName, idx), s.disk[FaissFile(fileName) := idx][PklFile(fileName) := idx])
  }

  // ---------------------------------------------------------------------
  // Properties relating several calls
  // ---------------------------------------------------------------------

  /** Whitespace-only text touches neither the cache nor the directory. */
  lemma BlankTextIsNoOp(s: State, fileName: string, text: string, split: string -> seq<string>)
    requires s.cache.Valid() && IsBlank(text)
    ensures StoreChunks(s, fileName, text, split) == s
  {
  }

  /** Text the splitter turns into no chunks touches neither the cache nor the directory. */
  lemma NoChunksIsNoOp(s: State, fileName: string, text: string, split: string -> seq<string>)
    requires s.cache.Valid() && |split(text)| == 0
    ensures StoreChunks(s, fileName, text, split) == s
  {
  }

  /** Building the same text under the same name twice is building it once. */
  lemma StoreChunksIdempotent(s: State, fileName: string, text: string, split: string -> seq<string>)
    requires s.cache.Valid()
    ensures StoreChunks(StoreChunks(s, fileName, text, split), fileName, text, split) == StoreChunks(s, fileName, text, split)
  {
    var r := StoreChunks(s, fileName, text, split);
    if BuildIndex(fileName, text, split).Some? {
      var idx := BuildIndex(fileName, text, split).value;
      PutPresent(r.cache, fileName, idx);
      RewritePair(r.disk, fileName, idx);
      assert StoreChunks(r, fileName, text, split) == State(Put(r.cache, fileName, idx), r.disk[FaissFile(fileName) := idx][PklFile(fileName) := idx]);
    }
  }

  /** Assigning a key the index it already holds leaves the cache as it is. */
  lemma PutPresent(c: Cache, name: string, idx: Index)
    requires c.Valid() && name in c.entries && c.entries[name] == idx
    ensures Put(c, name, idx) == c
  {
    assert c.entries[name := idx] == c.entries;
  }

  /** Writing a pair that is already on disk leaves the directory as it is. */
  lemma RewritePair(disk: Disk, name: string, idx: Index)
    requires OnDisk(disk, name) && disk[FaissFile(name)] == idx && disk[PklFile(name)] == idx
    ensures disk[FaissFile(name) := idx][PklFile(name) := idx] == disk
  {
  }

  /** A build keeps every cached index equal to its pair on disk. */
  lemma StoreKeepsCoherent(s: State, fileName: string, text: string, split: string -> seq<string>)
    requires s.cache.Valid() && Coherent(s)
    ensures Coherent(StoreChunks(s, fileName, text, split))
  {
    var r := StoreChunks(s, fileName, text, split);
    forall n | n in r.cache.entries ensures OnDisk(r.disk, n) && r.disk[PklFile(n)] == r.cache.entries[n] {
      FileNamesDistinct(n, fileName);
      FileNamesDistinct(fileName, n);
    }
  }

  /** A lookup keeps every cached index equal to its pair on disk. */
  lemma GetKeepsCoherent(s: State, fileName: Option<string>, listing: seq<string>)
    requires s.cache.Valid() && Enumerates(listing, s.disk.Keys) && Coherent(s)
    ensures Coherent(GetVectorstore(s, fileName, listing).1)
  {
  }

  /**
   * With a coherent state, forgetting the cache is invisible to named
   * lookups: after a restart the same name finds the same index.
   */
  lemma RestartInvisibleToNamedLookup(s: State, name: string)
    requires s.cache.Valid() && Coherent(s)
    ensures Lookup(Restart(s), name).0 == Lookup(s, name).0
  {
  }

  /** Build, restart, look up by name: the index built is the one found. */
  lemma StoreRestartGet(s: State, fileName: string, text: string, split: string -> seq<string>, listing: seq<string>)
    requires s.cache.Valid() && fileName != ""
    requires BuildIndex(fileName, text, split).Some?
    requires Enumerates(listing, StoreChunks(s, fileName, text, split).disk.Keys)
    ensures GetVectorstore(Restart(StoreChunks(s, fileName, text, split)), Some(fileName), listing).0
         == BuildIndex(fileName, text, split)
  {
  }

  /**
   * With an empty cache the no-name lookup looks at one file only: if the
   * first `.faiss` file lacks its `.pkl`, the result is `None` even when
   * another complete pair exists.
   */
  lemma DefaultLooksAtFirstFaissOnly(s: State, listing: seq<string>)
    requires s.cache.Valid() && Enumerates(listing, s.disk.Keys) && |s.cache.order| == 0
    requires DefaultName(listing).Some? && PklFile(DefaultName(listing).value) !in s.disk
    ensures GetVectorstore(s, None, listing) == (None, s)
  {
  }

  /** Whatever is cached first stays the no-name answer's name across builds and lookups. */
  lemma DefaultNameIsStable(s: State, fileName: string, text: string, split: string -> seq<string>,
                            name: Option<string>, listing: seq<string>)
    requires s.cache.Valid() && |s.cache.order| > 0
    requires Enumerates(listing, StoreChunks(s, fileName, text, split).disk.Keys)
    ensures var r := GetVectorstore(StoreChunks(s, fileName, text, split), name, listing).1;
      |r.cache.order| > 0 && r.cache.order[0] == s.cache.order[0]
  {
    var s1 := StoreChunks(s, fileName, text, split);
    var r := GetVectorstore(s1, name, listing).1;
    GrowsTransitive(s.cache, s1.cache, r.cache);
    GrowsKeepsFirst(s.cache, r.cache);
  }

  // ---------------------------------------------------------------------
  // The code as written, where it departs from the corrected model above
  // ---------------------------------------------------------------------

  /** The name of the index pair `save_local` writes inside the folder it is given. */
  const FolderIndex := "index"

  /**
   * `vs.save_local(path)` as LangChain implements it: `path` is a folder and
   * the pair is written inside it as `index.faiss` / `index.pkl`, not as
   * `<path>.faiss` / `<path>.pkl`, which is what `get_vectorstore` probes.
   * The vectorstore directory gains one entry, the folder `<name>`, holding
   * the index. For the empty name the folder is the vectorstore directory
   * itself, which then holds `index.faiss` / `index.pkl` directly.
   */
  function StoreChunksAsWritten(s: State, fileName: string, text: string, split: string -> seq<string>): (r: State)
    requires s.cache.Valid()
    ensures r.cache == StoreChunks(s, fileName, text, split).cache
    ensures BuildIndex(fileName, text, split).None? ==> r == s
    ensures BuildIndex(fileName, text, split).Some? && fileName != "" ==>
      && fileName in r.disk && r.disk[fileName] == BuildIndex(fileName, text, split).value
      && r.disk.Keys == s.disk.Keys + {fileName}
    ensures BuildIndex(fileName, text, split).Some? && fileName == "" ==>
      && PklFile(FolderIndex) in r.disk && r.disk[PklFile(FolderIndex)] == BuildIndex(fileName, text, split).value
      && r.disk.Keys == s.disk.Keys + {FaissFile(FolderIndex), PklFile(FolderIndex)}
    ensures forall f | f in s.disk && f != fileName && f != FaissFile(FolderIndex) && f != PklFile(FolderIndex) ::
      f in r.disk && r.disk[f] == s.disk[f]
  {
    match BuildIndex(fileName, text, split)
    case None => s
    case Some(idx) => State(Put(s.cache, fileName, idx), SaveFolder(s.disk, fileName, idx))
  }

  /** The directory after `save_local` wrote `idx` into the folder `<fileName>`. */
  function SaveFolder(disk: Disk, fileName: string, idx: Index): (r: Disk)
    ensures fileName != "" ==> fileName in r && r[fileName] == idx && r.Keys == disk.Keys + {fileName}
    ensures fileName == "" ==>
      && PklFile(FolderIndex) in r && r[PklFile(FolderIndex)] == idx
      && r.Keys == disk.Keys + {FaissFile(FolderIndex), PklFile(FolderIndex)}
    ensures forall f | f in disk && f != fileName && f != FaissFile(FolderIndex) && f != PklFile(FolderIndex) ::
      f in r && r[f] == disk[f]
  {
    if fileName == "" then disk[FaissFile(FolderIndex) := idx][PklFile(FolderIndex) := idx]
    else disk[fileName := idx]
  }

  /** No entry of the directory is a `.pkl` file, so no pair is complete. */
  predicate NoPkl(disk: Disk) {
    forall f | f in disk :: !EndsWith(f, PklExt)
  }

  /** With an empty cache and no `.pkl` file, every lookup, with a name or without, finds nothing and changes nothing. */
  lemma NoPklFindsNothing(s: State, fileName: Option<string>, listing: seq<string>)
    requires s.cache.Valid() && Enumerates(listing, s.disk.Keys) && |s.cache.order| == 0 && NoPkl(s.disk)
    ensures GetVectorstore(s, fileName, listing) == (None, s)
    ensures GetVectorstoreAsWritten(s, fileName, listing) == (None, s)
  {
    forall n ensures !OnDisk(s.disk, n) {
      AppendThenDrop(n, PklExt);
    }
  }

  /**
   * As written, storing keeps a directory free of `.pkl` files (for a
   * non-empty name that does not itself end in `.pkl`), so after a restart
   * every lookup, with a name or without, finds nothing.
   */
  lemma AsWrittenStoreLostAfterRestart(s: State, fileName: string, text: string, split: string -> seq<string>,
                                       name: Option<string>, listing: seq<string>)
    requires s.cache.Valid() && NoPkl(s.disk)
    requires fileName != "" && !EndsWith(fileName, PklExt)
    requires Enumerates(listing, StoreChunksAsWritten(s, fileName, text, split).disk.Keys)
    ensures NoPkl(StoreChunksAsWritten(s, fileName, text, split).disk)
    ensures var r := Restart(StoreChunksAsWritten(s, fileName, text, split));
      && GetVectorstoreAsWritten(r, name, listing) == (None, r)
      && GetVectorstore(r, name, listing) == (None, r)
  {
    NoPklFindsNothing(Restart(StoreChunksAsWritten(s, fileName, text, split)), name, listing);
  }

  /**
   * As written, a stored index is lost at the next restart: the lookup probes
   * `<name>.faiss`, which the save never creates, and answers `None`.
   */
  lemma StoredIndexLostAfterRestart(s: State, fileName: string, text: string, split: string -> seq<string>)
    requires s.cache.Valid() && FaissFile(fileName) !in s.disk
    requires BuildIndex(fileName, text, split).Some?
    ensures Lookup(StoreChunksAsWritten(s, fileName, text, split), fileName).0.Some?
    ensures Lookup(Restart(StoreChunksAsWritten(s, fileName, text, split)), fileName).0 == None
  {
    var r := StoreChunksAsWritten(s, fileName, text, split);
    assert |FaissFile(fileName)| != |fileName|;
    if fileName == "" {
      assert FaissFile("") != FaissFile(FolderIndex) && FaissFile("") != PklFile(FolderIndex);
    }
    assert FaissFile(fileName) !in r.disk;
  }

  /** `files[0].replace(".faiss", "")`: every occurrence is removed, not only the extension. */
  function DefaultNameAsWritten(listing: seq<string>): (r: Option<string>)
    ensures r.None? <==> forall f | f in listing :: !EndsWith(f, FaissExt)
  {
    match FirstFaiss(listing)
    case None => None
    case Some(f) => Some(ReplaceAll(f, FaissExt, ""))
  }

  /** `get_vectorstore` with the default name computed as written. */
  function GetVectorstoreAsWritten(s: State, fileName: Option<string>, listing: seq<string>): (r: (Option<Index>, State))
    requires s.cache.Valid() && Enumerates(listing, s.disk.Keys)
    ensures r.1.disk == s.disk
    ensures !(NoName(fileName) && |s.cache.order| == 0) ==> r == GetVectorstore(s, fileName, listing)
  {
    if NoName(fileName) && |s.cache.order| == 0 then
      match DefaultNameAsWritten(listing)
      case None => (None, s)
      case Some(n) => Lookup(s, n)
    else GetVectorstore(s, fileName, listing)
  }

  /**
   * A document named `x.faiss` is saved as `x.faiss.faiss`; the default
   * rule as written turns that into `x`, probes `x.faiss` / `x.pkl` and
   * finds nothing, while dropping only the extension finds the index.
   */
  lemma InnerFaissBreaksDefault(idx: Index)
    ensures var s := State(EmptyCache, map["x.faiss.faiss" := idx, "x.faiss.pkl" := idx]);
      var listing := ["x.faiss.faiss", "x.faiss.pkl"];
      && Enumerates(listing, s.disk.Keys)
      && GetVectorstoreAsWritten(s, None, listing).0 == None
      && GetVectorstore(s, None, listing).0 == Some(idx)
  {
    var s := State(EmptyCache, map["x.faiss.faiss" := idx, "x.faiss.pkl" := idx]);
    var listing := ["x.faiss.faiss", "x.faiss.pkl"];
    InnerFaissListing(s.disk, idx);
    DefaultsOfInnerFaiss(listing);
    InnerFaissLookups(s, idx);
    assert GetVectorstoreAsWritten(s, None, listing) == Lookup(s, "x");
    assert GetVectorstore(s, None, listing) == Lookup(s, "x.faiss");
  }

  /** With that pair alone, looking up `x` finds nothing and looking up `x.faiss` finds the index. */
  lemma InnerFaissLookups(s: State, idx: Index)
    requires s == State(EmptyCache, map["x.faiss.faiss" := idx, "x.faiss.pkl" := idx])
    ensures Lookup(s, "x").0 == None
    ensures Lookup(s, "x.faiss").0 == Some(idx)
  {
    assert FaissFile("x") == "x.faiss" && "x.faiss" !in s.disk;
    assert FaissFile("x.faiss") == "x.faiss.faiss" && PklFile("x.faiss") == "x.faiss.pkl";
  }

  /** The two-entry listing enumerates the pair's directory. */
  lemma InnerFaissListing(disk: Disk, idx: Index)
    requires disk == map["x.faiss.faiss" := idx, "x.faiss.pkl" := idx]
    ensures Enumerates(["x.faiss.faiss", "x.faiss.pkl"], disk.Keys)
  {
    var listing := ["x.faiss.faiss", "x.faiss.pkl"];
    assert |listing[0]| != |listing[1]|;
    assert disk.Keys == {"x.faiss.faiss", "x.faiss.pkl"};
  }

  /** For the listing of that pair, the fallback as written is `x` and the corrected one `x.faiss`. */
  lemma DefaultsOfInnerFaiss(listing: seq<string>)
    requires listing == ["x.faiss.faiss", "x.faiss.pkl"]
    ensures DefaultNameAsWritten(listing) == Some("x")
    ensures DefaultName(listing) == Some("x.faiss")
  {
    assert EndsWith(listing[0], FaissExt);
    assert FirstFaiss(listing) == Some("x.faiss.faiss");
    ReplaceInnerFaiss();
    assert DropSuffix("x.faiss.faiss", FaissExt) == "x.faiss";
  }

  /** `"x.faiss.faiss".replace(".faiss", "")` is `"x"`. */
  lemma ReplaceInnerFaiss()
    ensures ReplaceAll("x.faiss.faiss", FaissExt, "") == "x"
  {
    var f := "x.faiss.faiss";
    assert f[..6][0] == 'x';
    assert f[1..][..6] == FaissExt;
    assert f[1..][6..][..6] == FaissExt;
    assert f[1..][6..][6..] == "";
    assert ReplaceAll(f[1..][6..][6..], FaissExt, "") == "";
    assert ReplaceAll(f[1..][6..], FaissExt, "") == "";
    assert ReplaceAll(f[1..], FaissExt, "") == "";
  }
}

=== FILE: file_manager.dfy ===
/**
 * The `uploaded` directory: its entries by name and kind (the bytes of a
 * file are not modelled).
 */
module FileManager {
  import opened Wrappers
  import opened Text

  newtype byte = x: int | 0 <= x < 256

  /** A Streamlit upload: its `.name` and what `.read()` returns. */
  datatype UploadedFile = UploadedFile(name: string, data: seq<byte>)

  datatype Entry = RegularFile | Subdirectory

  /** The `uploaded` directory: entry name to kind. */
  type UploadDir = map<string, Entry>

  /** The error `open(..., "wb")` or `os.remove` raises on a directory. */
  datatype OsError = IsADirectory

  predicate IsRegularFile(dir: UploadDir, name: string) {
    name in dir && dir[name] == RegularFile
  }

  /**
   * Names that resolve to a directory whatever the upload directory holds:
   * `""` and `"."` name the upload directory itself, `".."` its parent.
   */
  predicate IsDotName(name: string) {
    name == "" || name == "." || name == ".."
  }

  /**
   * `os.path.join("uploaded", name)` names a directory: the upload
   * directory itself or its parent, or a subdirectory.
   */
  predicate NamesDirectory(dir: UploadDir, name: string) {
    IsDotName(name) || (name in dir && dir[name] == Subdirectory)
  }

  /** The regular-file entries of `listing`, in listing order. */
  function RegularFiles(dir: UploadDir, listing: seq<string>): (files: seq<string>)
    ensures forall f :: f in files <==> f in listing && IsRegularFile(dir, f)
    ensures Distinct(listing) ==> Distinct(files)
    ensures |files| <= |listing|
  {
    if |listing| == 0 then []
    else
      var rest := RegularFiles(dir, listing[1..]);
      assert forall f :: f in listing <==> f == listing[0] || f in listing[1..];
      if IsRegularFile(dir, listing[0]) then
        assert Distinct(listing) ==> listing[0] !in listing[1..];
        [listing[0]] + rest
      else rest
  }

  /** `list_uploaded_files`: every regular file of the directory, each once. */
  function ListUploadedFiles(dir: UploadDir, listing: seq<string>): (files: seq<string>)
    requires Enumerates(listing, dir.Keys)
    ensures forall f :: f in files <==> IsRegularFile(dir, f)
    ensures Distinct(files)
  {
    RegularFiles(dir, listing)
  }

  /**
   * `delete_uploaded_file`: `True` after removing an existing file, `False`
   * when nothing has that name; `os.remove` raises on a directory.
   */
  function DeleteUploadedFile(dir: UploadDir, filename: string): (r: Result<(bool, UploadDir), OsError>)
    ensures r.Err? <==> NamesDirectory(dir, filename)
    ensures r.Ok? ==> (r.value.0 <==> filename in dir)
    ensures r.Ok? ==> filename !in r.value.1 && r.value.1.Keys == dir.Keys - {filename}
    ensures r.Ok? ==> forall f :: f in r.value.1 ==> r.value.1[f] == dir[f]
  {
    if IsDotName(filename) then Err(IsADirectory)
    else if filename in dir then
      match dir[filename]
      case RegularFile => Ok((true, dir - {filename}))
      case Subdirectory => Err(IsADirectory)
    else Ok((false, dir))
  }

  /**
   * `save_uploaded_file`: write the upload under its own name, unsanitised,
   * and return that name; `open` raises when the name is a directory.
   */
  function SaveUploadedFile(dir: UploadDir, upload: UploadedFile): (r: Result<(string, UploadDir), OsError>)
    ensures r.Err? <==> NamesDirectory(dir, upload.name)
    ensures r.Ok? ==> r.value.0 == upload.name && IsRegularFile(r.value.1, upload.name)
    ensures r.Ok? ==> r.value.1.Keys == dir.Keys + {upload.name}
    ensures r.Ok? ==> forall f :: f in dir && f != upload.name ==> r.value.1[f] == dir[f]
  {
    if NamesDirectory(dir, upload.name) then Err(IsADirectory)
    else Ok((upload.name, dir[upload.name := RegularFile]))
  }

  // ---------------------------------------------------------------------
  // Properties relating several calls
  // ---------------------------------------------------------------------

  /**
   * Deleting a name that is not an entry reports `False` and changes
   * nothing, except for `""`, `"."` and `".."`: those exist as directories,
   * so `os.remove` raises.
   */
  lemma DeleteAbsentIsNoOp(dir: UploadDir, filename: string)
    requires filename !in dir
    ensures DeleteUploadedFile(dir, filename) == if IsDotName(filename) then Err(IsADirectory) else Ok((false, dir))
  {
  }

  /** A saved upload is listed, and deleting it reports `True` and removes it from the listing. */
  lemma SaveListDelete(dir: UploadDir, upload: UploadedFile, before: seq<string>, after: seq<string>)
    requires !NamesDirectory(dir, upload.name)
    requires Enumerates(before, SaveUploadedFile(dir, upload).value.1.Keys)
    ensures upload.name in ListUploadedFiles(SaveUploadedFile(dir, upload).value.1, before)
    ensures var d := DeleteUploadedFile(SaveUploadedFile(dir, upload).value.1, upload.name);
      d.Ok? && d.value.0 && d.value.1 == dir - {upload.name}
    ensures Enumerates(after, (dir - {upload.name}).Keys) ==>
      upload.name !in ListUploadedFiles(dir - {upload.name}, after)
  {
    var saved := SaveUploadedFile(dir, upload).value.1;
    assert saved - {upload.name} == dir - {upload.name};
  }
}

=== FILE: history_store.dfy ===
/**
 * The chat-history store: one JSON file `<session id>.json` per session in
 * the `chat_histories` directory, each holding the session's turns,
 * newest first. The directory is a map from file name to what the file
 * holds; the JSON byte encoding is abstracted to the parsed value.
 */
module HistoryStore {
  import opened Text

  /** One question/answer exchange as main.py records it. */
  datatype Turn = Turn(question: string, answer: string, sources: seq<string>)

  type History = seq<Turn>

  /** A file of the directory: a turn list, or bytes `json.load` rejects. */
  datatype Record = Saved(history: History) | Unreadable

  /** The `chat_histories` directory: file name to content. */
  type Dir = map<string, Record>

  const JsonExt := ".json"

  /** What writing a file can come to: `open(..., "w")` truncates before `json.dump` writes. */
  datatype WriteOutcome =
    | Written
    | OpenFailed   // open raised: the file is untouched
    | Interrupted  // json.dump raised after the truncation: a partial, unreadable file remains

  /** What `os.remove` on an existing file can come to. */
  datatype RemoveOutcome = Removed | RemoveFailed

  /** The file name that holds a session (`get_path`). */
  function PathOf(sessionId: string): (file: string)
    ensures EndsWith(file, JsonExt)
    ensures SessionOf(file) == sessionId
  {
    AppendThenDrop(sessionId, JsonExt);
    sessionId + JsonExt
  }

  /** The session id a `.json` file name stands for (`f[:-5]`). */
  function SessionOf(file: string): string
    requires EndsWith(file, JsonExt)
  {
    DropSuffix(file, JsonExt)
  }

  /** Stripping `.json` and appending it again gives the file name back. */
  lemma PathOfSessionOf(file: string)
    requires EndsWith(file, JsonExt)
    ensures PathOf(SessionOf(file)) == file
  {
  }

  lemma PathOfInjective(a: string, b: string)
    ensures PathOf(a) == PathOf(b) <==> a == b
  {
    if PathOf(a) == PathOf(b) {
      AppendInjective(a, b, JsonExt);
    }
  }

  /** The session has a file that `json.load` can read. */
  predicate HasReadableRecord(dir: Dir, sessionId: string) {
    PathOf(sessionId) in dir && dir[PathOf(sessionId)].Saved?
  }

  /** `load`: the stored turns, or `[]` when the file is missing or unreadable. */
  function Load(dir: Dir, sessionId: string): (h: History)
    ensures HasReadableRecord(dir, sessionId) ==> h == dir[PathOf(sessionId)].history
    ensures !HasReadableRecord(dir, sessionId) ==> h == []
  {
    var file := PathOf(sessionId);
    if file in dir then
      match dir[file]
      case Saved(h) => h
      case Unreadable => []
    else []
  }

  /** `save`: write the turns; a failure is printed, never raised. */
  function Save(dir: Dir, sessionId: string, history: History, io: WriteOutcome): (r: Dir)
    ensures io == Written ==> Load(r, sessionId) == history
    ensures io == OpenFailed ==> r == dir
    ensures io == Interrupted ==> Load(r, sessionId) == []
    ensures r.Keys == dir.Keys + (if io == OpenFailed then {} else {PathOf(sessionId)})
    ensures forall f :: f in dir && f != PathOf(sessionId) ==> r[f] == dir[f]
  {
    match io
    case Written => dir[PathOf(sessionId) := Saved(history)]
    case OpenFailed => dir
    case Interrupted => dir[PathOf(sessionId) := Unreadable]
  }

  /**
   * `clear`: remove the session's file. A missing file is not an error and a
   * failing removal is printed, never raised.
   */
  function Clear(dir: Dir, sessionId: string, io: RemoveOutcome): (r: Dir)
    ensures io == Removed ==> PathOf(sessionId) !in r && Load(r, sessionId) == []
    ensures io == RemoveFailed ==> r == dir
    ensures PathOf(sessionId) !in dir ==> r == dir
    ensures r.Keys <= dir.Keys
    ensures forall f :: f in dir && f != PathOf(sessionId) ==> f in r && r[f] == dir[f]
  {
    var file := PathOf(sessionId);
    if file !in dir then dir
    else if io == Removed then dir - {file}
    else dir
  }

  /** `delete_session`: exactly `clear`. */
  function DeleteSession(dir: Dir, sessionId: string, io: RemoveOutcome): (r: Dir)
    ensures r == Clear(dir, sessionId, io)
  {
    Clear(dir, sessionId, io)
  }

  /** The session ids behind the `.json` names of `listing`, in listing order. */
  function SessionIds(listing: seq<string>): (ids: seq<string>)
    ensures forall id :: id in ids <==> PathOf(id) in listing
    ensures Distinct(listing) ==> Distinct(ids)
    ensures |ids| <= |listing|
  {
    if |listing| == 0 then []
    else
      var f := listing[0];
      var rest := SessionIds(listing[1..]);
      assert forall x :: x in listing <==> x == f || x in listing[1..];
      if EndsWith(f, JsonExt) then
        PathOfSessionOf(f);
        assert Distinct(listing) ==> f !in listing[1..];
        [SessionOf(f)] + rest
      else
        forall id ensures PathOf(id) != f { }
        rest
  }

  /**
   * `list_sessions`: the id of every `.json` file in the directory, each
   * once, in the order the directory listing returns them.
   */
  function ListSessions(dir: Dir, listing: seq<string>): (ids: seq<string>)
    requires Enumerates(listing, dir.Keys)
    ensures forall id :: id in ids <==> PathOf(id) in dir
    ensures Distinct(ids)
  {
    SessionIds(listing)
  }

  /**
   * `os.rename(src, dst)` with POSIX semantics: `dst` is replaced, and
   * renaming a file onto itself changes nothing.
   */
  function Move(dir: Dir, src: string, dst: string): (r: Dir)
    requires src in dir
    ensures dst in r && r[dst] == dir[src]
    ensures src != dst ==> src !in r
    ensures forall f :: f != src && f != dst ==> (f in r <==> f in dir) && (f in r ==> r[f] == dir[f])
  {
    if src == dst then dir else (dir - {src})[dst := dir[src]]
  }

  /**
   * `rename_session`: when `old` has a file it is moved to `new`'s name,
   * replacing whatever `new` had; otherwise nothing happens.
   */
  function RenameSession(dir: Dir, oldId: string, newId: string): (r: Dir)
    ensures PathOf(oldId) !in dir ==> r == dir
    ensures PathOf(oldId) in dir ==> Load(r, newId) == Load(dir, oldId)
    ensures PathOf(oldId) in dir && oldId != newId ==> PathOf(oldId) !in r && Load(r, oldId) == []
    ensures forall id :: id != oldId && id != newId ==> Load(r, id) == Load(dir, id)
  {
    var src := PathOf(oldId);
    var dst := PathOf(newId);
    PathOfInjective(oldId, newId);
    forall id | id != oldId && id != newId ensures PathOf(id) != src && PathOf(id) != dst {
      PathOfInjective(id, oldId);
      PathOfInjective(id, newId);
    }
    if src in dir then Move(dir, src, dst) else dir
  }

  // ---------------------------------------------------------------------
  // Properties relating several calls
  // ---------------------------------------------------------------------

  /** A successful save is read back by load, and no other session's turns change. */
  lemma SaveThenLoad(dir: Dir, sessionId: string, history: History, other: string)
    ensures Load(Save(dir, sessionId, history, Written), sessionId) == history
    ensures other != sessionId ==> Load(Save(dir, sessionId, history, Written), other) == Load(dir, other)
  {
    PathOfInjective(other, sessionId);
  }

  /** The last successful save wins. */
  lemma SaveOverwrites(dir: Dir, sessionId: string, h1: History, h2: History)
    ensures Save(Save(dir, sessionId, h1, Written), sessionId, h2, Written) == Save(dir, sessionId, h2, Written)
  {
  }

  /** Clearing twice is clearing once, whatever the second removal would have done. */
  lemma ClearIdempotent(dir: Dir, sessionId: string, io1: RemoveOutcome, io2: RemoveOutcome)
    requires io1 == Removed
    ensures Clear(Clear(dir, sessionId, io1), sessionId, io2) == Clear(dir, sessionId, io1)
  {
  }

  /** After a clear the session loads empty and is no longer listed. */
  lemma ClearThenList(dir: Dir, sessionId: string, listing: seq<string>)
    requires Enumerates(listing, Clear(dir, sessionId, Removed).Keys)
    ensures Load(Clear(dir, sessionId, Removed), sessionId) == []
    ensures sessionId !in ListSessions(Clear(dir, sessionId, Removed), listing)
  {
  }

  /** Renaming a session onto itself, or renaming a missing session, changes nothing. */
  lemma RenameNoOps(dir: Dir, oldId: string, newId: string)
    requires oldId == newId || PathOf(oldId) !in dir
    ensures RenameSession(dir, oldId, newId) == dir
  {
  }

  /** A rename moves the listed id: `old` leaves the listing and `new` is in it. */
  lemma RenameThenList(dir: Dir, oldId: string, newId: string, before: seq<string>, after: seq<string>)
    requires PathOf(oldId) in dir && oldId != newId
    requires Enumerates(before, dir.Keys)
    requires Enumerates(after, RenameSession(dir, oldId, newId).Keys)
    ensures oldId in ListSessions(dir, before)
    ensures newId in ListSessions(RenameSession(dir, oldId, newId), after)
    ensures oldId !in ListSessions(RenameSession(dir, oldId, newId), after)
    ensures forall id :: id != oldId && id != newId ==>
      (id in ListSessions(RenameSession(dir, oldId, newId), after) <==> id in ListSessions(dir, before))
  {
    var r := RenameSession(dir, oldId, newId);
    PathOfInjective(oldId, newId);
    forall id | id != oldId && id != newId ensures PathOf(id) in r <==> PathOf(id) in dir {
      PathOfInjective(id, oldId);
      PathOfInjective(id, newId);
    }
  }
}

=== FILE: main_app.dfy ===
/**
 * The state transitions of the Streamlit script: the per-browser session
 * state (current chat id, in-memory history, uploaded-file list) and the
 * directories each button or upload changes. Widgets and rendering are
 * not modelled; each function is one pass of the script for one action.
 */
module App {
  import opened Wrappers
  import opened Text
  import HistoryStore
  import ShareHandler
  import SessionManager
  import DbHandler
  import QaPipeline
  import FileManager

  /** The answer recorded when the pipeline's dict has no `answer`. */
  const NoAnswerFound := "No answer found."

  /** The option label meaning "no file selected" in the delete radio. */
  const NoSelection := "None"

  // ---------------------------------------------------------------------
  // sanitize_filename
  // ---------------------------------------------------------------------

  /** A character of the regular-expression class in `sanitize_filename`: backslash, slash, star, question mark, colon, double quote, angle brackets, bar, NUL. */
  predicate IsReserved(c: char) {
    c == '\\' || c == '/' || c == '*' || c == '?' || c == ':' || c == '"' || c == '<' || c == '>' || c == '|' || c == '\U{0}'
  }

  predicate IsSafeName(s: string) {
    forall i :: 0 <= i < |s| ==> !IsReserved(s[i])
  }

  /** `sanitize_filename`: each reserved character becomes `_`, every other one stays. */
  function SanitizeFilename(name: string): (safe: string)
    ensures |safe| == |name|
    ensures forall i :: 0 <= i < |name| ==> safe[i] == (if IsReserved(name[i]) then '_' else name[i])
    decreases |name|
  {
    if |name| == 0 then ""
    else [if IsReserved(name[0]) then '_' else name[0]] + SanitizeFilename(name[1..])
  }

  /** No reserved character survives. */
  lemma SanitizedIsSafe(name: string)
    ensures IsSafeName(SanitizeFilename(name))
  {
  }

  /** Sanitising changes a name exactly when it holds a reserved character. */
  lemma SanitizeFixesExactlySafeNames(name: string)
    ensures SanitizeFilename(name) == name <==> IsSafeName(name)
  {
    if !IsSafeName(name) {
      var i :| 0 <= i < |name| && IsReserved(name[i]);
      assert SanitizeFilename(name)[i] != name[i];
    }
  }

  lemma SanitizeIdempotent(name: string)
    ensures SanitizeFilename(SanitizeFilename(name)) == SanitizeFilename(name)
  {
    SanitizedIsSafe(name);
    SanitizeFixesExactlySafeNames(SanitizeFilename(name));
  }

  // ---------------------------------------------------------------------
  // Extension dispatch
  // ---------------------------------------------------------------------

  datatype Kind = Pdf | Docx | Txt | Image | Unsupported

  /** The extensions the script extracts text from, as the uploader's `type` list names them. */
  const SupportedExtensions := ["pdf", "docx", "txt", "png", "jpg", "jpeg"]

  /** `safe_name.split(".")[-1].lower()`. */
  function Extension(name: string): (ext: string)
    ensures '.' !in ext
  {
    AsciiLower(AfterLastDot(name))
  }

  /** The branch of the `if`/`elif` chain an extension takes. */
  function KindOf(ext: string): (k: Kind)
    ensures k == Unsupported <==> ext !in SupportedExtensions
    ensures k == Pdf <==> ext == "pdf"
    ensures k == Docx <==> ext == "docx"
    ensures k == Txt <==> ext == "txt"
    ensures k == Image <==> ext == "png" || ext == "jpg" || ext == "jpeg"
  {
    if ext == "pdf" then Pdf
    else if ext == "docx" then Docx
    else if ext == "txt" then Txt
    else if ext == "png" || ext == "jpg" || ext == "jpeg" then Image
    else Unsupported
  }

  /**
   * The text of an upload with extension `ext`: `extract` is the pdfplumber,
   * python-docx, UTF-8 read or pytesseract call of the branch taken; any
   * other extension gives `""`.
   */
  function ExtractText(ext: string, data: seq<FileManager.byte>, extract: (Kind, seq<FileManager.byte>) -> string): (text: string)
    ensures ext !in SupportedExtensions ==> text == ""
    ensures ext in SupportedExtensions ==> text == extract(KindOf(ext), data)
  {
    var kind := KindOf(ext);
    if kind == Unsupported then "" else extract(kind, data)
  }

  /** The extension is what follows the last dot. */
  lemma ExtensionAfterLastDot(base: string, ext: string)
    requires '.' !in ext
    ensures Extension(base + "." + ext) == AsciiLower(ext)
  {
    AfterLastDotOfDotted(base, ext);
  }

  /** A name without a dot is its own extension, lower-cased. */
  lemma ExtensionWithoutDot(name: string)
    requires '.' !in name
    ensures Extension(name) == AsciiLower(name)
  {
    AfterLastDotOfDotless(name);
  }

  // ---------------------------------------------------------------------
  // Session state and chat transitions
  // ---------------------------------------------------------------------

  /** `st.session_state`: current chat id, in-memory history, uploaded-file list. */
  datatype Ui = Ui(chatId: string, history: HistoryStore.History, uploaded: seq<string>)

  /**
   * Lines 24-47: a resolvable share link opens its snapshot (its chat id and
   * messages); otherwise a new timestamp id `freshId` and its stored history.
   */
  function StartSession(shared: Option<ShareHandler.Snapshot>, freshId: string, histories: HistoryStore.Dir): (ui: Ui)
    ensures shared.Some? ==> ui.chatId == shared.value.chatId && ui.history == shared.value.messages
    ensures shared.None? ==> ui.chatId == freshId && ui.history == HistoryStore.Load(histories, freshId)
    ensures ui.uploaded == []
  {
    match shared
    case Some(snap) => Ui(snap.chatId, snap.messages, [])
    case None => Ui(freshId, HistoryStore.Load(histories, freshId), [])
  }

  /** The turn the Ask button records: missing keys take their defaults. */
  function TurnOf(question: string, answers: QaPipeline.Answers): (t: HistoryStore.Turn)
    ensures t.question == question
    ensures answers.answer.None? ==> t.answer == NoAnswerFound
    ensures answers.sources.None? ==> t.sources == []
    ensures answers.answer.Some? ==> t.answer == answers.answer.value
    ensures answers.sources.Some? ==> t.sources == answers.sources.value
  {
    HistoryStore.Turn(question, answers.answer.GetOr(NoAnswerFound), answers.sources.GetOr([]))
  }

  /**
   * Lines 157-165 after the pipeline answered: put the new turn first and
   * save the whole history under the current chat id. An empty question
   * does nothing.
   */
  function RecordTurn(ui: Ui, histories: HistoryStore.Dir, question: string, answers: QaPipeline.Answers,
                      io: HistoryStore.WriteOutcome): (r: (Ui, HistoryStore.Dir))
    ensures question == "" ==> r == (ui, histories)
    ensures question != "" ==>
      && |r.0.history| == |ui.history| + 1
      && r.0.history[0] == TurnOf(question, answers)
      && r.0.history[1..] == ui.history
      && r.0.chatId == ui.chatId && r.0.uploaded == ui.uploaded
      && r.1 == HistoryStore.Save(histories, ui.chatId, r.0.history, io)
    ensures question != "" && io == HistoryStore.Written ==> HistoryStore.Load(r.1, ui.chatId) == r.0.history
  {
    if question == "" then (ui, histories)
    else
      var history := [TurnOf(question, answers)] + ui.history;
      (ui.(history := history), HistoryStore.Save(histories, ui.chatId, history, io))
  }

  /** Everything one pass of the script can change. */
  datatype AppState = AppState(ui: Ui, histories: HistoryStore.Dir, uploads: FileManager.UploadDir, vectors: DbHandler.State)

  predicate Valid(st: AppState) {
    st.vectors.cache.Valid() && Distinct(st.ui.uploaded)
  }

  /**
   * The Ask button: run the pipeline on the question and record its
   * answer. With an empty question the pipeline is not called at all.
   */
  function AskAndRecord(st: AppState, question: string, listing: seq<string>,
                        retrieve: (DbHandler.Index, string) -> seq<DbHandler.Document>,
                        llm: (seq<DbHandler.Document>, string) -> QaPipeline.LlmReply,
                        io: HistoryStore.WriteOutcome): (r: AppState)
    requires Valid(st) && Enumerates(listing, st.vectors.disk.Keys)
    ensures Valid(r) && r.uploads == st.uploads
    ensures question == "" ==> r == st
    ensures question != "" ==>
      var (answers, vectors) := QaPipeline.Ask(st.vectors, listing, question, retrieve, llm);
      && r.vectors == vectors
      && r.ui.history == [HistoryStore.Turn(question, answers.answer.value, answers.sources.value)] + st.ui.history
      && r.ui.chatId == st.ui.chatId && r.ui.uploaded == st.ui.uploaded
      && r.histories == HistoryStore.Save(st.histories, st.ui.chatId, r.ui.history, io)
  {
    if question == "" then st
    else
      var (answers, vectors) := QaPipeline.Ask(st.vectors, listing, question, retrieve, llm);
      var (ui, histories) := RecordTurn(st.ui, st.histories, question, answers, io);
      AppState(ui, histories, st.uploads, vectors)
  }

  /** Lines 67-71, the New Chat button: a new id `freshId`, an empty history, saved as `[]`. */
  function NewChat(ui: Ui, histories: HistoryStore.Dir, freshId: string, io: HistoryStore.WriteOutcome): (r: (Ui, HistoryStore.Dir))
    ensures r.0.chatId == freshId && r.0.history == [] && r.0.uploaded == ui.uploaded
    ensures r.1 == HistoryStore.Save(histories, freshId, [], io)
    ensures r.1.Keys == histories.Keys + (if io == HistoryStore.OpenFailed then {} else {HistoryStore.PathOf(freshId)})
    ensures io == HistoryStore.Written ==> HistoryStore.PathOf(freshId) in r.1 && HistoryStore.Load(r.1, freshId) == []
    ensures forall id :: id != freshId ==> HistoryStore.Load(r.1, id) == HistoryStore.Load(histories, id)
  {
    forall id | id != freshId ensures HistoryStore.PathOf(id) != HistoryStore.PathOf(freshId) {
      HistoryStore.PathOfInjective(id, freshId);
    }
    (Ui(freshId, [], ui.uploaded), HistoryStore.Save(histories, freshId, [], io))
  }

  /**
   * Lines 73-76, the Clear History button: the history is emptied and `[]`
   * is saved. Unlike `HistoryStore.Clear`, the session's file stays, so the
   * session stays listed.
   */
  function ClearHistory(ui: Ui, histories: HistoryStore.Dir, io: HistoryStore.WriteOutcome): (r: (Ui, HistoryStore.Dir))
    ensures r.0.chatId == ui.chatId && r.0.history == [] && r.0.uploaded == ui.uploaded
    ensures r.1 == HistoryStore.Save(histories, ui.chatId, [], io)
    ensures r.1.Keys == histories.Keys + (if io == HistoryStore.OpenFailed then {} else {HistoryStore.PathOf(ui.chatId)})
    ensures io == HistoryStore.Written ==> HistoryStore.PathOf(ui.chatId) in r.1 && HistoryStore.Load(r.1, ui.chatId) == []
    ensures forall id :: id != ui.chatId ==> HistoryStore.Load(r.1, id) == HistoryStore.Load(histories, id)
  {
    forall id | id != ui.chatId ensures HistoryStore.PathOf(id) != HistoryStore.PathOf(ui.chatId) {
      HistoryStore.PathOfInjective(id, ui.chatId);
    }
    (ui.(history := []), HistoryStore.Save(histories, ui.chatId, [], io))
  }

  /** Lines 88-91, the Rename button: rename the stored session and switch to the new id. */
  function RenameCurrent(ui: Ui, histories: HistoryStore.Dir, newName: string): (r: (Ui, HistoryStore.Dir))
    ensures r.0.chatId == newName && r.0.history == ui.history && r.0.uploaded == ui.uploaded
    ensures HistoryStore.PathOf(ui.chatId) in histories ==>
      HistoryStore.Load(r.1, newName) == HistoryStore.Load(histories, ui.chatId)
    ensures r.1 == HistoryStore.RenameSession(histories, ui.chatId, newName)
  {
    (ui.(chatId := newName), HistoryStore.RenameSession(histories, ui.chatId, newName))
  }

  /** Lines 93-97, the Delete button: delete the stored session and start an unsaved new id. */
  function DeleteCurrent(ui: Ui, histories: HistoryStore.Dir, freshId: string, io: HistoryStore.RemoveOutcome): (r: (Ui, HistoryStore.Dir))
    ensures r.0.chatId == freshId && r.0.history == [] && r.0.uploaded == ui.uploaded
    ensures io == HistoryStore.Removed ==> HistoryStore.PathOf(ui.chatId) !in r.1 && HistoryStore.Load(r.1, ui.chatId) == []
    ensures io == HistoryStore.RemoveFailed ==> r.1 == histories
    ensures r.1.Keys <= histories.Keys
    ensures forall id :: id != ui.chatId ==> HistoryStore.Load(r.1, id) == HistoryStore.Load(histories, id)
  {
    forall id | id != ui.chatId ensures HistoryStore.PathOf(id) != HistoryStore.PathOf(ui.chatId) {
      HistoryStore.PathOfInjective(id, ui.chatId);
    }
    (Ui(freshId, [], ui.uploaded), HistoryStore.DeleteSession(histories, ui.chatId, io))
  }

  // ---------------------------------------------------------------------
  // The session selector
  // ---------------------------------------------------------------------

  /**
   * The id standing for the `None` the selectbox returns when no session
   * exists: the history store formats it into the file name `None.json`.
   */
  const NoSessionId := "None"

  /** `list.index(x)`: the position of the first occurrence. */
  function IndexOf(xs: seq<string>, x: string): (i: nat)
    requires x in xs
    ensures i < |xs| && xs[i] == x && x !in xs[..i]
    decreases |xs|
  {
    if xs[0] == x then 0
    else
      var j := IndexOf(xs[1..], x);
      assert xs[..j + 1] == [xs[0]] + xs[1..][..j];
      j + 1
  }

  /**
   * Line 80 when the user leaves the selectbox alone: the option at
   * `index`, which is the current id's position when it is listed and 0
   * otherwise; with no options the selectbox gives `None`.
   */
  function DefaultSelection(chatId: string, sessions: seq<string>): (sel: Option<string>)
    ensures chatId in sessions ==> sel == Some(chatId)
    ensures chatId !in sessions && |sessions| > 0 ==> sel == Some(sessions[0])
    ensures |sessions| == 0 <==> sel.None?
  {
    var index := if chatId in sessions then IndexOf(sessions, chatId) else 0;
    if |sessions| == 0 then None else Some(sessions[index])
  }

  /**
   * Lines 81-83: a selection other than the current id becomes the current
   * session, with its history loaded from disk.
   */
  function FollowSelection(ui: Ui, histories: HistoryStore.Dir, selected: Option<string>): (r: Ui)
    ensures r.uploaded == ui.uploaded && r.chatId == selected.GetOr(NoSessionId)
    ensures r.chatId == ui.chatId ==> r == ui
    ensures r.chatId != ui.chatId ==> r.history == HistoryStore.Load(histories, r.chatId)
  {
    var id := selected.GetOr(NoSessionId);
    if id == ui.chatId then ui else Ui(id, HistoryStore.Load(histories, id), ui.uploaded)
  }

  /**
   * Lines 79-83 in every pass, after the buttons above them and before
   * anything is shown: a current id with a stored file stays; otherwise the
   * pass switches to the first listed session, or to `None` when there is
   * none.
   */
  function SettleSession(ui: Ui, histories: HistoryStore.Dir, listing: seq<string>): (r: Ui)
    requires Enumerates(listing, histories.Keys)
    ensures r.uploaded == ui.uploaded
    ensures HistoryStore.PathOf(ui.chatId) in histories ==> r == ui
    ensures var sessions := HistoryStore.ListSessions(histories, listing);
      HistoryStore.PathOf(ui.chatId) !in histories && |sessions| > 0 ==>
        r.chatId == sessions[0] && r.chatId != ui.chatId && r.history == HistoryStore.Load(histories, sessions[0])
    ensures |HistoryStore.ListSessions(histories, listing)| == 0 ==>
      r.chatId == NoSessionId && (ui.chatId == NoSessionId ==> r == ui) && (ui.chatId != NoSessionId ==> r.history == [])
    ensures HistoryStore.PathOf(r.chatId) in histories <==> |HistoryStore.ListSessions(histories, listing)| > 0
  {
    FollowSelection(ui, histories, DefaultSelection(ui.chatId, HistoryStore.ListSessions(histories, listing)))
  }

  // ---------------------------------------------------------------------
  // Uploads
  // ---------------------------------------------------------------------

  /**
   * Lines 123-149 for one upload: write it under its sanitised name (the
   * same write as `save_uploaded_file`); if that name is not yet in the
   * list, append it, extract the text by extension and index it under that
   * name. A name already listed is rewritten on disk but not re-indexed. A
   * write that raises ends the pass.
   */
  function ProcessUpload(st: AppState, upload: FileManager.UploadedFile,
                         extract: (Kind, seq<FileManager.byte>) -> string,
                         split: string -> seq<string>): (r: Result<AppState, FileManager.OsError>)
    requires Valid(st)
    ensures r.Err? <==> FileManager.NamesDirectory(st.uploads, SanitizeFilename(upload.name))
    ensures r.Ok? ==> Valid(r.value) && SanitizeFilename(upload.name) in r.value.ui.uploaded
    ensures r.Ok? ==> FileManager.IsRegularFile(r.value.uploads, SanitizeFilename(upload.name))
    ensures r.Ok? ==> r.value.uploads == st.uploads[SanitizeFilename(upload.name) := FileManager.RegularFile]
    ensures r.Ok? ==> r.value.histories == st.histories && r.value.ui.chatId == st.ui.chatId
    ensures r.Ok? ==> r.value.ui.history == st.ui.history
    ensures r.Ok? && SanitizeFilename(upload.name) in st.ui.uploaded ==>
      r.value.vectors == st.vectors && r.value.ui == st.ui
    ensures r.Ok? && SanitizeFilename(upload.name) !in st.ui.uploaded ==>
      var name := SanitizeFilename(upload.name);
      && r.value.ui.uploaded == st.ui.uploaded + [name]
      && r.value.vectors == DbHandler.StoreChunks(st.vectors, name, ExtractText(Extension(name), upload.data, extract), split)
  {
    var name := SanitizeFilename(upload.name);
    match FileManager.SaveUploadedFile(st.uploads, FileManager.UploadedFile(name, upload.data))
    case Err(e) => Err(e)
    case Ok((_, uploads)) =>
      if name in st.ui.uploaded then Ok(st.(uploads := uploads))
      else
        var text := ExtractText(Extension(name), upload.data, extract);
        var ui := st.ui.(uploaded := st.ui.uploaded + [name]);
        Ok(AppState(ui, st.histories, uploads, DbHandler.StoreChunks(st.vectors, name, text, split)))
  }

  /**
   * The loop of lines 123-149 over every upload of the pass. The loop has no
   * `try`: a write that raises ends the pass, and what the earlier uploads
   * did (files written, names listed, indexes built) stays. The result is
   * the state reached and the error, if any.
   */
  function ProcessUploads(st: AppState, uploads: seq<FileManager.UploadedFile>,
                          extract: (Kind, seq<FileManager.byte>) -> string,
                          split: string -> seq<string>): (r: (AppState, Option<FileManager.OsError>))
    requires Valid(st)
    ensures Valid(r.0)
    ensures r.0.histories == st.histories && r.0.ui.chatId == st.ui.chatId && r.0.ui.history == st.ui.history
    ensures forall n | n in st.ui.uploaded :: n in r.0.ui.uploaded
    ensures r.1.None? ==> forall u | u in uploads :: SanitizeFilename(u.name) in r.0.ui.uploaded
    ensures r.1.Some? ==> exists k :: 0 <= k < |uploads| && FailsAt(r.0, uploads, k)
    decreases |uploads|
  {
    if |uploads| == 0 then (st, None)
    else
      match ProcessUpload(st, uploads[0], extract, split)
      case Err(e) =>
        assert FailsAt(st, uploads, 0);
        (st, Some(e))
      case Ok(st1) =>
        var r := ProcessUploads(st1, uploads[1..], extract, split);
        assert forall u | u in uploads :: u == uploads[0] || u in uploads[1..];
        if r.1.Some? then FailureShifts(r.0, uploads); r else r
  }

  /** A failure after the first upload is a failure of the whole sequence, one position later. */
  lemma FailureShifts(st: AppState, uploads: seq<FileManager.UploadedFile>)
    requires |uploads| > 0 && SanitizeFilename(uploads[0].name) in st.ui.uploaded
    requires exists k :: 0 <= k < |uploads[1..]| && FailsAt(st, uploads[1..], k)
    ensures exists k :: 0 <= k < |uploads| && FailsAt(st, uploads, k)
  {
    var k :| 0 <= k < |uploads[1..]| && FailsAt(st, uploads[1..], k);
    assert uploads[k + 1] == uploads[1..][k];
    forall j | 0 <= j < k + 1 ensures SanitizeFilename(uploads[j].name) in st.ui.uploaded {
      if j > 0 { assert uploads[j] == uploads[1..][j - 1]; }
    }
    assert FailsAt(st, uploads, k + 1);
  }

  /**
   * The pass stopped at upload `k`: its sanitised name denotes a directory,
   * and every upload before it is listed.
   */
  predicate FailsAt(st: AppState, uploads: seq<FileManager.UploadedFile>, k: int)
    requires 0 <= k < |uploads|
  {
    && FileManager.NamesDirectory(st.uploads, SanitizeFilename(uploads[k].name))
    && forall j :: 0 <= j < k ==> SanitizeFilename(uploads[j].name) in st.ui.uploaded
  }

  /** Processing `a + b` is processing `a`, then, unless that raised, `b` from where `a` left off. */
  lemma {:induction false} ProcessUploadsAppend(st: AppState, a: seq<FileManager.UploadedFile>, b: seq<FileManager.UploadedFile>,
                                                extract: (Kind, seq<FileManager.byte>) -> string,
                                                split: string -> seq<string>)
    requires Valid(st)
    ensures var ra := ProcessUploads(st, a, extract, split);
      ProcessUploads(st, a + b, extract, split) == if ra.1.Some? then ra else ProcessUploads(ra.0, b, extract, split)
    decreases |a|
  {
    if |a| == 0 {
      assert a + b == b;
    } else {
      assert (a + b)[0] == a[0];
      assert (a + b)[1..] == a[1..] + b;
      match ProcessUpload(st, a[0], extract, split)
      case Err(_) =>
      case Ok(st1) => ProcessUploadsAppend(st1, a[1..], b, extract, split);
    }
  }

  /**
   * A write that raises ends the pass without undoing the upload before it:
   * that upload stays written, listed and indexed.
   */
  lemma EarlierUploadSurvivesError(st: AppState, u: FileManager.UploadedFile, bad: FileManager.UploadedFile,
                                   extract: (Kind, seq<FileManager.byte>) -> string,
                                   split: string -> seq<string>)
    requires Valid(st)
    requires !FileManager.NamesDirectory(st.uploads, SanitizeFilename(u.name))
    requires FileManager.NamesDirectory(st.uploads, SanitizeFilename(bad.name))
    ensures var st1 := ProcessUpload(st, u, extract, split);
      && st1.Ok?
      && ProcessUploads(st, [u, bad], extract, split) == (st1.value, Some(FileManager.IsADirectory))
      && SanitizeFilename(u.name) in st1.value.ui.uploaded
  {
    var st1 := ProcessUpload(st, u, extract, split).value;
    assert FileManager.NamesDirectory(st1.uploads, SanitizeFilename(bad.name));
    assert [u, bad][1..] == [bad];
    assert [bad][1..] == [];
  }

  /** `r` is `xs` without the occurrence of `x` at `i`, the first one. */
  predicate RemovedAt(xs: seq<string>, x: string, r: seq<string>, i: int) {
    0 <= i < |xs| && xs[i] == x && x !in xs[..i] && r == xs[..i] + xs[i + 1..]
  }

  /** `list.remove(x)`: drop the first occurrence; `x` must be present (Python raises `ValueError` otherwise). */
  function RemoveFirst(xs: seq<string>, x: string): (r: seq<string>)
    requires x in xs
    ensures exists i :: RemovedAt(xs, x, r, i)
    ensures Distinct(xs) ==> Distinct(r) && x !in r
    ensures forall y :: y != x ==> (y in r <==> y in xs)
    decreases |xs|
  {
    if xs[0] == x then
      assert RemovedAt(xs, x, xs[1..], 0);
      RemovedAtFacts(xs, x, xs[1..]);
      xs[1..]
    else
      assert xs == [xs[0]] + xs[1..];
      var rest := RemoveFirst(xs[1..], x);
      RemoveFirstShift(xs, x, rest);
      RemovedAtFacts(xs, x, [xs[0]] + rest);
      [xs[0]] + rest
  }

  /** Cutting out the first occurrence keeps every other name and, on a repeat-free list, removes the name entirely. */
  lemma RemovedAtFacts(xs: seq<string>, x: string, r: seq<string>)
    requires exists i :: RemovedAt(xs, x, r, i)
    ensures Distinct(xs) ==> Distinct(r) && x !in r
    ensures forall y :: y != x ==> (y in r <==> y in xs)
  {
    var i :| RemovedAt(xs, x, r, i);
    assert xs == xs[..i] + [x] + xs[i + 1..];
    if Distinct(xs) {
      forall a, b | 0 <= a < b < |r| ensures r[a] != r[b] {
        var a' := if a < i then a else a + 1;
        var b' := if b < i then b else b + 1;
        assert r[a] == xs[a'] && r[b] == xs[b'];
      }
      forall k | 0 <= k < |r| ensures r[k] != x {
        var k' := if k < i then k else k + 1;
        assert r[k] == xs[k'];
      }
    }
  }

  /** The removed occurrence moves one place up when a different head is put back in front. */
  lemma RemoveFirstShift(xs: seq<string>, x: string, rest: seq<string>)
    requires |xs| > 0 && xs[0] != x
    requires exists i :: RemovedAt(xs[1..], x, rest, i)
    ensures exists i :: RemovedAt(xs, x, [xs[0]] + rest, i)
  {
    var i :| RemovedAt(xs[1..], x, rest, i);
    assert xs[..i + 1] == [xs[0]] + xs[1..][..i];
    assert xs[i + 2..] == xs[1..][i + 1..];
    assert RemovedAt(xs, x, [xs[0]] + rest, i + 1);
  }

  /**
   * Lines 58-65, the delete radio: `choice` is one of its options. Removing
   * the file and dropping it from the list happen together; when
   * `os.remove` raises (no such file, or a directory) nothing changes.
   */
  function RemoveSelected(st: AppState, choice: string): (r: AppState)
    requires Valid(st) && (choice == NoSelection || choice in st.ui.uploaded)
    ensures Valid(r)
    ensures choice == NoSelection ==> r == st
    ensures choice != NoSelection && FileManager.IsRegularFile(st.uploads, choice) && !FileManager.IsDotName(choice) ==>
      choice !in r.ui.uploaded && choice !in r.uploads
    ensures !(FileManager.IsRegularFile(st.uploads, choice) && !FileManager.IsDotName(choice)) ==> r == st
    ensures forall n :: n != choice ==> (n in r.ui.uploaded <==> n in st.ui.uploaded)
    ensures forall n :: n != choice ==> (n in r.uploads <==> n in st.uploads) && (n in r.uploads ==> r.uploads[n] == st.uploads[n])
    ensures r.vectors == st.vectors && r.histories == st.histories
    ensures r.ui.chatId == st.ui.chatId && r.ui.history == st.ui.history
  {
    if choice == NoSelection then st
    else
      match FileManager.DeleteUploadedFile(st.uploads, choice)
      case Ok((true, uploads)) => st.(uploads := uploads, ui := st.ui.(uploaded := RemoveFirst(st.ui.uploaded, choice)))
      case _ => st
  }

  /** Dropping a name appended to a list without it gives the list back. */
  lemma RemoveAppended(xs: seq<string>, x: string)
    requires x !in xs
    ensures RemoveFirst(xs + [x], x) == xs
  {
    var ys := xs + [x];
    var i :| RemovedAt(ys, x, RemoveFirst(ys, x), i);
    assert ys[..i] == xs;
  }

  // ---------------------------------------------------------------------
  // Properties relating several calls
  // ---------------------------------------------------------------------

  /** Asking records the pipeline's own answer and sources: the defaults never apply. */
  lemma AskRecordsPipelineAnswer(st: AppState, question: string, listing: seq<string>,
                                 retrieve: (DbHandler.Index, string) -> seq<DbHandler.Document>,
                                 llm: (seq<DbHandler.Document>, string) -> QaPipeline.LlmReply)
    requires Valid(st) && Enumerates(listing, st.vectors.disk.Keys) && question != ""
    ensures var r := AskAndRecord(st, question, listing, retrieve, llm, HistoryStore.Written);
      var answers := QaPipeline.Ask(st.vectors, listing, question, retrieve, llm).0;
      && HistoryStore.Load(r.histories, st.ui.chatId) == r.ui.history
      && r.ui.history[0].answer == answers.answer.value
      && r.ui.history[0].sources == answers.sources.value
  {
  }

  /** After New Chat's write the fresh id is listed at once, and every other id is listed as before. */
  lemma NewChatThenList(ui: Ui, histories: HistoryStore.Dir, freshId: string, listing: seq<string>)
    requires Enumerates(listing, NewChat(ui, histories, freshId, HistoryStore.Written).1.Keys)
    ensures var ids := HistoryStore.ListSessions(NewChat(ui, histories, freshId, HistoryStore.Written).1, listing);
      && freshId in ids
      && forall id :: id != freshId ==> (id in ids <==> HistoryStore.PathOf(id) in histories)
  {
    forall id | id != freshId ensures HistoryStore.PathOf(id) != HistoryStore.PathOf(freshId) {
      HistoryStore.PathOfInjective(id, freshId);
    }
  }

  /**
   * Unlike the store's `clear`, Clear History keeps the current id listed,
   * now loading `[]`; every other id is listed as before.
   */
  lemma ClearHistoryThenList(ui: Ui, histories: HistoryStore.Dir, listing: seq<string>)
    requires Enumerates(listing, ClearHistory(ui, histories, HistoryStore.Written).1.Keys)
    ensures var h := ClearHistory(ui, histories, HistoryStore.Written).1;
      var ids := HistoryStore.ListSessions(h, listing);
      && ui.chatId in ids && HistoryStore.Load(h, ui.chatId) == []
      && forall id :: id != ui.chatId ==> (id in ids <==> HistoryStore.PathOf(id) in histories)
  {
    forall id | id != ui.chatId ensures HistoryStore.PathOf(id) != HistoryStore.PathOf(ui.chatId) {
      HistoryStore.PathOfInjective(id, ui.chatId);
    }
  }

  /** An upload with an unsupported extension is listed but indexes nothing. */
  lemma UnsupportedUploadIndexesNothing(st: AppState, upload: FileManager.UploadedFile,
                                        extract: (Kind, seq<FileManager.byte>) -> string,
                                        split: string -> seq<string>)
    requires Valid(st) && Extension(SanitizeFilename(upload.name)) !in SupportedExtensions
    ensures var r := ProcessUpload(st, upload, extract, split);
      r.Ok? ==> r.value.vectors == st.vectors
  {
    StripEmptyIffBlank("");
  }

  /** Uploading the same file twice in a session indexes it once. */
  lemma SecondUploadNotReindexed(st: AppState, upload: FileManager.UploadedFile,
                                 extract: (Kind, seq<FileManager.byte>) -> string,
                                 split: string -> seq<string>)
    requires Valid(st) && !FileManager.NamesDirectory(st.uploads, SanitizeFilename(upload.name))
    ensures var st1 := ProcessUpload(st, upload, extract, split).value;
      var r := ProcessUpload(st1, upload, extract, split);
      r.Ok? && r.value.vectors == st1.vectors && r.value.ui == st1.ui
  {
  }

  /**
   * Opening a share link shows the session as it was when shared, under
   * the original chat id.
   */
  lemma OpenSharedLink(store: SessionManager.Store, sessionId: string, token: string,
                       ops: seq<SessionManager.HistoryOp>, freshId: string)
    requires ShareHandler.IsUuid4(token) && ShareHandler.Fresh(store.shares, token)
    ensures var (t, shared) := SessionManager.GenerateShareLink(store, sessionId, token);
      var later := SessionManager.ApplyAll(shared, ops);
      var ui := StartSession(ShareHandler.Resolve(later.shares, t), freshId, later.histories);
      ui.chatId == sessionId && ui.history == HistoryStore.Load(store.histories, sessionId)
  {
    SessionManager.SnapshotIsFrozen(store, sessionId, token, ops);
  }

  /**
   * Uploading a new file and then deleting it with the radio gives the
   * upload list back and leaves the upload directory without that name;
   * the index built for it stays. A file named `"None"` cannot be deleted
   * this way: that option means no selection.
   */
  lemma UploadThenRemove(st: AppState, upload: FileManager.UploadedFile,
                         extract: (Kind, seq<FileManager.byte>) -> string,
                         split: string -> seq<string>)
    requires Valid(st)
    requires !FileManager.NamesDirectory(st.uploads, SanitizeFilename(upload.name))
    requires SanitizeFilename(upload.name) !in st.ui.uploaded
    ensures var name := SanitizeFilename(upload.name);
      var st1 := ProcessUpload(st, upload, extract, split).value;
      var r := RemoveSelected(st1, name);
      && (name != NoSelection ==>
            r.ui.uploaded == st.ui.uploaded && r.uploads == st.uploads - {name} && r.vectors == st1.vectors)
      && (name == NoSelection ==> r == st1)
  {
    var name := SanitizeFilename(upload.name);
    var st1 := ProcessUpload(st, upload, extract, split).value;
    assert st1.ui.uploaded == st.ui.uploaded + [name];
    assert st1.uploads == st.uploads[name := FileManager.RegularFile];
    if name != NoSelection {
      var r := RemoveSelected(st1, name);
      RemoveListedFile(st1, name);
      assert r.ui.uploaded == RemoveFirst(st.ui.uploaded + [name], name);
      RemoveAppended(st.ui.uploaded, name);
      PutThenRemove(st.uploads, name, FileManager.RegularFile);
      assert r.uploads == st.uploads - {name};
    }
  }

  /** Writing a key and then removing it is removing it. */
  lemma PutThenRemove(m: FileManager.UploadDir, k: string, v: FileManager.Entry)
    ensures m[k := v] - {k} == m - {k}
  {
  }

  /** Selecting a listed regular file removes it from the directory and from the list, and nothing else. */
  lemma RemoveListedFile(st: AppState, name: string)
    requires Valid(st) && name in st.ui.uploaded && name != NoSelection
    requires FileManager.IsRegularFile(st.uploads, name) && !FileManager.IsDotName(name)
    ensures RemoveSelected(st, name) == st.(uploads := st.uploads - {name}, ui := st.ui.(uploaded := RemoveFirst(st.ui.uploaded, name)))
  {
  }

  /**
   * Opening a minted link, after any later history operations, ends the
   * first pass on the snapshot while the owner's session still has a file.
   * Once that file is gone (deleted, or renamed away), the selector moves
   * the viewer to the first listed session, another one.
   */
  lemma OpenSharedLinkSettles(store: SessionManager.Store, sessionId: string, token: string,
                              ops: seq<SessionManager.HistoryOp>, freshId: string, listing: seq<string>)
    requires ShareHandler.IsUuid4(token) && ShareHandler.Fresh(store.shares, token)
    requires var later := SessionManager.ApplyAll(SessionManager.GenerateShareLink(store, sessionId, token).1, ops);
      Enumerates(listing, later.histories.Keys)
    ensures var (t, shared) := SessionManager.GenerateShareLink(store, sessionId, token);
      var later := SessionManager.ApplyAll(shared, ops);
      var sessions := HistoryStore.ListSessions(later.histories, listing);
      var ui := SettleSession(StartSession(ShareHandler.Resolve(later.shares, t), freshId, later.histories), later.histories, listing);
      && (HistoryStore.PathOf(sessionId) in later.histories ==>
            ui.chatId == sessionId && ui.history == HistoryStore.Load(store.histories, sessionId))
      && (HistoryStore.PathOf(sessionId) !in later.histories && |sessions| > 0 ==>
            ui.chatId == sessions[0] && ui.chatId != sessionId && ui.history == HistoryStore.Load(later.histories, sessions[0]))
  {
    OpenSharedLink(store, sessionId, token, ops, freshId);
  }

  /**
   * A start without a share link whose fresh id has no file yet ends the
   * first pass on the first listed session, when there is one.
   */
  lemma FreshStartSettles(freshId: string, histories: HistoryStore.Dir, listing: seq<string>)
    requires Enumerates(listing, histories.Keys) && HistoryStore.PathOf(freshId) !in histories
    ensures var sessions := HistoryStore.ListSessions(histories, listing);
      var ui := SettleSession(StartSession(None, freshId, histories), histories, listing);
      && (|sessions| > 0 ==> ui.chatId == sessions[0] && ui.history == HistoryStore.Load(histories, sessions[0]))
      && (|sessions| == 0 ==> ui.chatId == NoSessionId && ui.history == [])
  {
  }

  /**
   * After Delete and `st.rerun()`, the fresh unsaved id is replaced by the
   * first session still listed, with its stored history, or by `None`
   * when the deleted session was the last.
   */
  lemma DeleteThenSettle(ui: Ui, histories: HistoryStore.Dir, freshId: string, listing: seq<string>)
    requires HistoryStore.PathOf(freshId) !in histories
    requires Enumerates(listing, DeleteCurrent(ui, histories, freshId, HistoryStore.Removed).1.Keys)
    ensures var (ui1, h1) := DeleteCurrent(ui, histories, freshId, HistoryStore.Removed);
      var sessions := HistoryStore.ListSessions(h1, listing);
      var r := SettleSession(ui1, h1, listing);
      && ui.chatId !in sessions
      && (|sessions| > 0 ==> r.chatId == sessions[0] && r.history == HistoryStore.Load(h1, sessions[0]))
      && (|sessions| == 0 ==> r.chatId == NoSessionId && r.history == [])
  {
    var (ui1, h1) := DeleteCurrent(ui, histories, freshId, HistoryStore.Removed);
    assert HistoryStore.PathOf(freshId) !in h1;
  }

  /**
   * A share-link viewer asks in the session the selector settled on. While
   * the owner's session has a file that is the snapshot's chat id (line 36),
   * so the new turn followed by the snapshot overwrites the owner's
   * session; otherwise the turn is put in front of the first listed
   * session's stored history.
   */
  lemma SharedViewerWritesOwnerSession(snap: ShareHandler.Snapshot, freshId: string, histories: HistoryStore.Dir,
                                       listing: seq<string>, question: string, answers: QaPipeline.Answers)
    requires question != "" && Enumerates(listing, histories.Keys)
    ensures var ui := SettleSession(StartSession(Some(snap), freshId, histories), histories, listing);
      var sessions := HistoryStore.ListSessions(histories, listing);
      var (_, histories') := RecordTurn(ui, histories, question, answers, HistoryStore.Written);
      && (HistoryStore.PathOf(snap.chatId) in histories ==>
            HistoryStore.Load(histories', snap.chatId) == [TurnOf(question, answers)] + snap.messages)
      && (HistoryStore.PathOf(snap.chatId) !in histories && |sessions| > 0 ==>
            HistoryStore.Load(histories', sessions[0]) == [TurnOf(question, answers)] + HistoryStore.Load(histories, sessions[0]))
  {
  }
}

=== FILE: qa_pipeline.dfy ===
/**
 * `QAWrapper.ask`: fetch the default index, retrieve documents for the
 * question, have the chat model answer, and report the distinct sources.
 * Retrieval and generation are library calls and appear as parameters.
 */
module QaPipeline {
  import opened Wrappers
  import opened Text
  import opened DbHandler

  /** The answer given when no index can be found. */
  const NoIndexAnswer := "\U{26A0}\U{FE0F} Vectorstore not found. Please upload and process a document first."

  /** The source reported for a document whose metadata has no `source`. */
  const UnknownSource := "Unknown"

  /** What the chat model returns: an object with `.content`, or any other object, by its `str()`. */
  datatype LlmReply = Message(content: string) | Other(text: string)

  /** The dict `ask` returns, by the keys main.py reads; `None` is a missing key. */
  datatype Answers = Answers(answer: Option<string>, sources: Option<seq<string>>)

  /** `doc.metadata.get("source", "Unknown")`. */
  function SourceOf(d: Document): string {
    if SourceKey in d.metadata then d.metadata[SourceKey] else UnknownSource
  }

  function Sources(docs: seq<Document>): (r: seq<string>)
    ensures |r| == |docs| && forall i :: 0 <= i < |docs| ==> r[i] == SourceOf(docs[i])
  {
    seq(|docs|, i requires 0 <= i < |docs| => SourceOf(docs[i]))
  }

  /** `result.content if hasattr(result, "content") else str(result)`. */
  function AnswerText(reply: LlmReply): string {
    match reply
    case Message(c) => c
    case Other(t) => t
  }

  /**
   * `ask(query)`. `retrieve` is the index's retriever (deterministic, so the
   * documents it returns are also the context the chain gives the model)
   * and `llm` is the prompt-filling and chat-model call.
   */
  function Ask(s: State, listing: seq<string>, query: string,
               retrieve: (Index, string) -> seq<Document>,
               llm: (seq<Document>, string) -> LlmReply): (r: (Answers, State))
    requires s.cache.Valid() && Enumerates(listing, s.disk.Keys)
    ensures r.0.answer.Some? && r.0.sources.Some?
    ensures r.1 == GetVectorstore(s, None, listing).1
    ensures GetVectorstore(s, None, listing).0.None? ==> r.0 == Answers(Some(NoIndexAnswer), Some([]))
    ensures GetVectorstore(s, None, listing).0.Some? ==>
      var docs := retrieve(GetVectorstore(s, None, listing).0.value, query);
      && Distinct(r.0.sources.value)
      && (forall src :: src in r.0.sources.value <==> src in Sources(docs))
      && r.0.answer.value == AnswerText(llm(docs, query))
  {
    var (vs, s') := GetVectorstore(s, None, listing);
    match vs
    case None => (Answers(Some(NoIndexAnswer), Some([])), s')
    case Some(index) =>
      var docs := retrieve(index, query);
      var answer := AnswerText(llm(docs, query));
      (Answers(Some(answer), Some(Dedup(Sources(docs)))), s')
  }

  // ---------------------------------------------------------------------
  // Properties relating several calls
  // ---------------------------------------------------------------------

  /** Every document of a built index reports the name it was stored under. */
  lemma BuiltDocsReportName(fileName: string, text: string, split: string -> seq<string>, d: Document)
    requires BuildIndex(fileName, text, split).Some? && d in BuildIndex(fileName, text, split).value.docs
    ensures SourceOf(d) == fileName
  {
  }

  /**
   * In a fresh process, index one document and ask: the answer comes from
   * that document and, when the retriever returns any of its chunks, the
   * sources are exactly its name.
   */
  lemma AskAfterFirstStore(s: State, fileName: string, text: string, split: string -> seq<string>,
                           listing: seq<string>, query: string,
                           retrieve: (Index, string) -> seq<Document>,
                           llm: (seq<Document>, string) -> LlmReply)
    requires s.cache.Valid() && |s.cache.order| == 0
    requires BuildIndex(fileName, text, split).Some?
    requires Enumerates(listing, StoreChunks(s, fileName, text, split).disk.Keys)
    requires var idx := BuildIndex(fileName, text, split).value;
      |retrieve(idx, query)| > 0 && forall d | d in retrieve(idx, query) :: d in idx.docs
    ensures Ask(StoreChunks(s, fileName, text, split), listing, query, retrieve, llm).0.sources == Some([fileName])
  {
    var s1 := StoreChunks(s, fileName, text, split);
    var idx := BuildIndex(fileName, text, split).value;
    assert s1.cache.order == [fileName];
    assert s1.cache.entries[fileName] == idx;
    assert GetVectorstore(s1, None, listing) == (Some(idx), s1);
    var docs := retrieve(idx, query);
    forall i | 0 <= i < |Sources(docs)| ensures Sources(docs)[i] == fileName {
      BuiltDocsReportName(fileName, text, split, docs[i]);
    }
    DedupConstant(Sources(docs), fileName);
  }

  /**
   * With the save as written, every question asked after a restart gets the
   * fixed warning, although a document was indexed before it.
   */
  lemma AskAfterRestartAsWritten(s: State, fileName: string, text: string, split: string -> seq<string>,
                                 listing: seq<string>, query: string,
                                 retrieve: (Index, string) -> seq<Document>,
                                 llm: (seq<Document>, string) -> LlmReply)
    requires s.cache.Valid() && NoPkl(s.disk)
    requires fileName != "" && !EndsWith(fileName, PklExt)
    requires Enumerates(listing, StoreChunksAsWritten(s, fileName, text, split).disk.Keys)
    ensures Ask(Restart(StoreChunksAsWritten(s, fileName, text, split)), listing, query, retrieve, llm).0
         == Answers(Some(NoIndexAnswer), Some([]))
  {
    AsWrittenStoreLostAfterRestart(s, fileName, text, split, None, listing);
  }

  /** With no index anywhere, asking reports the fixed message and no sources. */
  lemma AskWithoutIndex(s: State, listing: seq<string>, query: string,
                        retrieve: (Index, string) -> seq<Document>,
                        llm: (seq<Document>, string) -> LlmReply)
    requires s.cache.Valid() && |s.cache.order| == 0 && Enumerates(listing, s.disk.Keys)
    requires forall f | f in s.disk :: !EndsWith(f, FaissExt)
    ensures Ask(s, listing, query, retrieve, llm) == (Answers(Some(NoIndexAnswer), Some([])), s)
  {
  }
}

=== FILE: session_manager.dfy ===
/**
 * The session facade the UI calls: the history store and the share store
 * side by side, plus `download_session`'s JSON document.
 */
module SessionManager {
  import opened Wrappers
  import opened Text
  import HistoryStore
  import ShareHandler

  /** Both durable directories; they are separate, so ids and tokens never share a file. */
  datatype Store = Store(histories: HistoryStore.Dir, shares: ShareHandler.ShareDir)

  /** A JSON value as `json.dumps` serialises it; objects keep key order. */
  datatype Json = JString(str: string) | JArray(items: seq<Json>) | JObject(fields: seq<(string, Json)>)

  function StringsToJson(xs: seq<string>): Json {
    JArray(seq(|xs|, i requires 0 <= i < |xs| => JString(xs[i])))
  }

  /** A turn as main.py builds it: keys `question`, `answer`, `sources` in that order. */
  function TurnToJson(t: HistoryStore.Turn): Json {
    JObject([("question", JString(t.question)), ("answer", JString(t.answer)), ("sources", StringsToJson(t.sources))])
  }

  function HistoryToJson(h: HistoryStore.History): Json {
    JArray(seq(|h|, i requires 0 <= i < |h| => TurnToJson(h[i])))
  }

  /** Reading a JSON array of strings back. */
  function ItemsToStrings(items: seq<Json>): Option<seq<string>> {
    if |items| == 0 then Some([])
    else
      match (items[0], ItemsToStrings(items[1..]))
      case (JString(s), Some(rest)) => Some([s] + rest)
      case _ => None
  }

  function JsonToTurn(j: Json): Option<HistoryStore.Turn> {
    match j
    case JObject(fields) =>
      if |fields| == 3 && fields[0].0 == "question" && fields[1].0 == "answer" && fields[2].0 == "sources"
         && fields[0].1.JString? && fields[1].1.JString? && fields[2].1.JArray?
      then
        match ItemsToStrings(fields[2].1.items)
        case Some(sources) => Some(HistoryStore.Turn(fields[0].1.str, fields[1].1.str, sources))
        case None => None
      else None
    case _ => None
  }

  function ItemsToHistory(items: seq<Json>): Option<HistoryStore.History> {
    if |items| == 0 then Some([])
    else
      match (JsonToTurn(items[0]), ItemsToHistory(items[1..]))
      case (Some(t), Some(rest)) => Some([t] + rest)
      case _ => None
  }

  /** Reading a downloaded document back into turns. */
  function JsonToHistory(j: Json): Option<HistoryStore.History> {
    match j
    case JArray(items) => ItemsToHistory(items)
    case _ => None
  }

  lemma {:induction false} StringsRoundTrip(xs: seq<string>)
    ensures ItemsToStrings(StringsToJson(xs).items) == Some(xs)
    decreases |xs|
  {
    if |xs| > 0 {
      StringsRoundTrip(xs[1..]);
      assert StringsToJson(xs).items[1..] == StringsToJson(xs[1..]).items;
      assert [xs[0]] + xs[1..] == xs;
    }
  }

  lemma {:induction false} ItemsRoundTrip(h: HistoryStore.History)
    ensures ItemsToHistory(HistoryToJson(h).items) == Some(h)
    decreases |h|
  {
    if |h| > 0 {
      ItemsRoundTrip(h[1..]);
      StringsRoundTrip(h[0].sources);
      assert HistoryToJson(h).items[1..] == HistoryToJson(h[1..]).items;
      assert [h[0]] + h[1..] == h;
    }
  }

  /** The serialised history reads back as exactly the turns it was made from. */
  lemma HistoryRoundTrip(h: HistoryStore.History)
    ensures JsonToHistory(HistoryToJson(h)) == Some(h)
  {
    ItemsRoundTrip(h);
  }

  /** `list_sessions`: the history store's listing. */
  function ListSessions(st: Store, listing: seq<string>): (ids: seq<string>)
    requires Enumerates(listing, st.histories.Keys)
    ensures ids == HistoryStore.ListSessions(st.histories, listing)
    ensures forall id :: id in ids <==> HistoryStore.PathOf(id) in st.histories
  {
    HistoryStore.ListSessions(st.histories, listing)
  }

  /** `rename_session`: the history store's rename; shares are untouched. */
  function RenameSession(st: Store, oldId: string, newId: string): (r: Store)
    ensures r.histories == HistoryStore.RenameSession(st.histories, oldId, newId)
    ensures r.shares == st.shares
  {
    st.(histories := HistoryStore.RenameSession(st.histories, oldId, newId))
  }

  /** `delete_session`: the history store's delete; shares are untouched. */
  function DeleteSession(st: Store, sessionId: string, io: HistoryStore.RemoveOutcome): (r: Store)
    ensures r.histories == HistoryStore.Clear(st.histories, sessionId, io)
    ensures r.shares == st.shares
  {
    st.(histories := HistoryStore.DeleteSession(st.histories, sessionId, io))
  }

  /**
   * `download_session`: the session's turns as a JSON document. It is a
   * function of the store that returns no new store, so it mutates nothing.
   */
  function DownloadSession(st: Store, sessionId: string): (doc: Json)
    ensures JsonToHistory(doc) == Some(HistoryStore.Load(st.histories, sessionId))
  {
    HistoryRoundTrip(HistoryStore.Load(st.histories, sessionId));
    HistoryToJson(HistoryStore.Load(st.histories, sessionId))
  }

  /**
   * `generate_share_link`: snapshot the session's current history under a
   * fresh token and return the token. The history store is untouched.
   */
  function GenerateShareLink(st: Store, sessionId: string, token: string): (r: (string, Store))
    requires ShareHandler.IsUuid4(token) && ShareHandler.Fresh(st.shares, token)
    ensures ShareHandler.Fresh(st.shares, r.0)
    ensures ShareHandler.Resolve(r.1.shares, r.0)
         == Some(ShareHandler.Snapshot(sessionId, HistoryStore.Load(st.histories, sessionId)))
    ensures r.1.histories == st.histories
    ensures forall t :: t != r.0 ==> ShareHandler.Resolve(r.1.shares, t) == ShareHandler.Resolve(st.shares, t)
  {
    var history := HistoryStore.Load(st.histories, sessionId);
    var (t, shares) := ShareHandler.ShareChatHistory(st.histories, st.shares, sessionId, Some(history), token);
    (t, st.(shares := shares))
  }

  /** The history-side operations the UI can perform after a share. */
  datatype HistoryOp =
    | SaveOp(id: string, history: HistoryStore.History, writeIo: HistoryStore.WriteOutcome)
    | ClearOp(id: string, io: HistoryStore.RemoveOutcome)
    | RenameOp(oldId: string, newId: string)
    | DeleteOp(id: string, io: HistoryStore.RemoveOutcome)

  function Apply(st: Store, op: HistoryOp): Store {
    match op
    case SaveOp(id, h, io) => st.(histories := HistoryStore.Save(st.histories, id, h, io))
    case ClearOp(id, io) => st.(histories := HistoryStore.Clear(st.histories, id, io))
    case RenameOp(o, n) => RenameSession(st, o, n)
    case DeleteOp(id, io) => DeleteSession(st, id, io)
  }

  function ApplyAll(st: Store, ops: seq<HistoryOp>): Store
    decreases |ops|
  {
    if |ops| == 0 then st else ApplyAll(Apply(st, ops[0]), ops[1..])
  }

  /** No history operation touches the share directory. */
  lemma {:induction false} HistoryOpsKeepShares(st: Store, ops: seq<HistoryOp>)
    ensures ApplyAll(st, ops).shares == st.shares
    decreases |ops|
  {
    if |ops| > 0 {
      HistoryOpsKeepShares(Apply(st, ops[0]), ops[1..]);
    }
  }

  /**
   * A shared snapshot is frozen: whatever saves, clears, renames or deletes
   * follow, the token still resolves to the history as it was at share time.
   */
  lemma SnapshotIsFrozen(st: Store, sessionId: string, token: string, ops: seq<HistoryOp>)
    requires ShareHandler.IsUuid4(token) && ShareHandler.Fresh(st.shares, token)
    ensures var (t, shared) := GenerateShareLink(st, sessionId, token);
      ShareHandler.Resolve(ApplyAll(shared, ops).shares, t)
        == Some(ShareHandler.Snapshot(sessionId, HistoryStore.Load(st.histories, sessionId)))
  {
    HistoryOpsKeepShares(GenerateShareLink(st, sessionId, token).1, ops);
  }

  /**
   * The share button of main.py passes no messages and lets the share store
   * load them; the facade loads them first. Both write the same snapshot.
   */
  lemma ShareButtonMatchesFacade(st: Store, sessionId: string, token: string)
    requires ShareHandler.IsUuid4(token) && ShareHandler.Fresh(st.shares, token)
    ensures GenerateShareLink(st, sessionId, token).1.shares
         == ShareHandler.ShareChatHistory(st.histories, st.shares, sessionId, None, token).1
  {
  }
}

=== FILE: share_handler.dfy ===
/**
 * The share store: one JSON file `<token>.json` per share in the
 * `shared_chats` directory, each holding a frozen copy of a session's turns
 * under `{metadata: {chat_id}, messages}`.
 */
module ShareHandler {
  import opened Wrappers
  import opened Text
  import HistoryStore

  /** The record `share_chat_history` writes: `{"metadata": {"chat_id": …}, "messages": …}`. */
  datatype Snapshot = Snapshot(chatId: string, messages: HistoryStore.History)

  /** A file of the directory: a snapshot, or bytes `json.load` rejects. */
  datatype ShareRecord = Shared(snapshot: Snapshot) | Garbled

  /** The `shared_chats` directory: file name to content. */
  type ShareDir = map<string, ShareRecord>

  /** The file name that holds a share (`_get_path`). */
  function PathOf(token: string): (file: string)
    ensures EndsWith(file, HistoryStore.JsonExt)
  {
    AppendThenDrop(token, HistoryStore.JsonExt);
    token + HistoryStore.JsonExt
  }

  lemma PathOfInjective(a: string, b: string)
    ensures PathOf(a) == PathOf(b) <==> a == b
  {
    if PathOf(a) == PathOf(b) {
      AppendInjective(a, b, HistoryStore.JsonExt);
    }
  }

  predicate IsLowerHex(c: char) {
    '0' <= c <= '9' || 'a' <= c <= 'f'
  }

  /**
   * `str(uuid.uuid4())`: the canonical text form of a version-4 UUID in
   * section 4.4 of RFC 4122 — 32 lower-case hex digits grouped 8-4-4-4-12,
   * the version digit `4` first in the third group and one of `8 9 a b`
   * (variant bits `10`) first in the fourth.
   */
  predicate IsUuid4(t: string) {
    && |t| == 36
    && (forall i :: 0 <= i < |t| ==>
          if i == 8 || i == 13 || i == 18 || i == 23 then t[i] == '-' else IsLowerHex(t[i]))
    && t[14] == '4'
    && (t[19] == '8' || t[19] == '9' || t[19] == 'a' || t[19] == 'b')
  }

  /** The token names no share yet: what the randomness of `uuid4` is relied on for. */
  predicate Fresh(shares: ShareDir, token: string) {
    PathOf(token) !in shares
  }

  /**
   * `load_shared_chat_history`: the snapshot, or `None` (standing for the `{}` it returns)
   * when the token has no file or its file is unreadable. Never raises.
   */
  function Resolve(shares: ShareDir, token: string): (r: Option<Snapshot>)
    ensures r.Some? <==> PathOf(token) in shares && shares[PathOf(token)].Shared?
    ensures r.Some? ==> r.value == shares[PathOf(token)].snapshot
  {
    var file := PathOf(token);
    if file in shares then
      match shares[file]
      case Shared(s) => Some(s)
      case Garbled => None
    else None
  }

  /**
   * `share_chat_history`: snapshot `messages` (or, when none are passed,
   * the session's history as loaded now) under a new token and return the
   * token. `token` stands for the `uuid.uuid4()` drawn there.
   */
  function ShareChatHistory(histories: HistoryStore.Dir, shares: ShareDir, chatId: string,
                            messages: Option<HistoryStore.History>, token: string): (r: (string, ShareDir))
    requires IsUuid4(token) && Fresh(shares, token)
    ensures r.0 == token
    ensures Resolve(r.1, r.0) == Some(Snapshot(chatId, messages.GetOr(HistoryStore.Load(histories, chatId))))
    ensures r.1.Keys == shares.Keys + {PathOf(r.0)}
    ensures forall t :: t != r.0 ==> Resolve(r.1, t) == Resolve(shares, t)
  {
    var snapshot := Snapshot(chatId, if messages.None? then HistoryStore.Load(histories, chatId) else messages.value);
    var shares' := shares[PathOf(token) := Shared(snapshot)];
    forall t | t != token ensures PathOf(t) != PathOf(token) {
      PathOfInjective(t, token);
    }
    (token, shares')
  }

  // ---------------------------------------------------------------------
  // Properties relating several calls
  // ---------------------------------------------------------------------

  /** A token is one path component: it holds no `/` and no `.`, so `<token>.json` stays in the share directory. */
  lemma Uuid4IsPlainName(t: string)
    requires IsUuid4(t)
    ensures '/' !in t && '.' !in t
  {
  }

  /** Sharing twice yields two tokens whose snapshots both stay resolvable. */
  lemma SharesAccumulate(histories: HistoryStore.Dir, shares: ShareDir, c1: string, m1: Option<HistoryStore.History>,
                         t1: string, c2: string, m2: Option<HistoryStore.History>, t2: string)
    requires IsUuid4(t1) && Fresh(shares, t1)
    requires IsUuid4(t2) && Fresh(ShareChatHistory(histories, shares, c1, m1, t1).1, t2)
    ensures t1 != t2
    ensures var s2 := ShareChatHistory(histories, ShareChatHistory(histories, shares, c1, m1, t1).1, c2, m2, t2).1;
      Resolve(s2, t1) == Some(Snapshot(c1, m1.GetOr(HistoryStore.Load(histories, c1))))
  {
  }
}

=== FILE: text.dfy ===
/** Sequence and string helpers: suffixes, Python whitespace, dedup, directory listings. */
module Text {

  predicate EndsWith(s: string, suffix: string) {
    |suffix| <= |s| && s[|s| - |suffix|..] == suffix
  }

  /** `s` with the trailing `suffix` removed (Python's `s[:-len(suffix)]`). */
  function DropSuffix(s: string, suffix: string): (r: string)
    requires EndsWith(s, suffix)
    ensures r + suffix == s
    ensures |r| == |s| - |suffix|
  {
    var r := s[..|s| - |suffix|];
    assert s == r + s[|s| - |suffix|..];
    r
  }

  lemma AppendThenDrop(s: string, suffix: string)
    ensures EndsWith(s + suffix, suffix)
    ensures DropSuffix(s + suffix, suffix) == s
  {
    assert (s + suffix)[|s|..] == suffix;
    assert (s + suffix)[..|s|] == s;
  }

  /** Appending a fixed suffix is injective. */
  lemma AppendInjective(a: string, b: string, suffix: string)
    requires a + suffix == b + suffix
    ensures a == b
  {
    assert |a| == |b|;
    assert a == (a + suffix)[..|a|];
    assert b == (b + suffix)[..|b|];
  }

  predicate Distinct<T(==)>(xs: seq<T>) {
    forall i, j :: 0 <= i < j < |xs| ==> xs[i] != xs[j]
  }

  /**
   * `listing` is one order in which a directory listing can return the
   * names of `names`: every name exactly once. The order itself is up to the
   * operating system, so the model takes it as a parameter.
   */
  predicate Enumerates(listing: seq<string>, names: set<string>) {
    && Distinct(listing)
    && (forall x | x in listing :: x in names)
    && (forall x | x in names :: x in listing)
  }

  /** The elements of `xs` in first-occurrence order, each once. */
  function Dedup(xs: seq<string>): (r: seq<string>)
    ensures Distinct(r)
    ensures forall x :: x in r <==> x in xs
    ensures |r| <= |xs|
  {
    if |xs| == 0 then []
    else
      var init := Dedup(xs[..|xs| - 1]);
      var last := xs[|xs| - 1];
      assert forall x :: x in xs <==> x in xs[..|xs| - 1] || x == last by {
        assert xs == xs[..|xs| - 1] + [last];
      }
      if last in init then init else init + [last]
  }

  /** Deduplicating a non-empty run of one value leaves that value once. */
  lemma {:induction false} DedupConstant(xs: seq<string>, x: string)
    requires |xs| > 0 && forall i :: 0 <= i < |xs| ==> xs[i] == x
    ensures Dedup(xs) == [x]
  {
    if |xs| > 1 {
      DedupConstant(xs[..|xs| - 1], x);
    }
  }

  /**
   * The characters Python's `str.isspace` accepts, which are the ones
   * `str.strip()` removes when called without arguments.
   */
  predicate IsSpace(c: char) {
    || '\t' <= c <= '\r'
    || '\U{1C}' <= c <= ' '
    || c == '\U{85}' || c == '\U{A0}' || c == '\U{1680}'
    || '\U{2000}' <= c <= '\U{200A}'
    || c == '\U{2028}' || c == '\U{2029}' || c == '\U{202F}' || c == '\U{205F}' || c == '\U{3000}'
  }

  predicate IsBlank(s: string) {
    forall i :: 0 <= i < |s| ==> IsSpace(s[i])
  }

  /** Python's `s.lstrip()`. */
  function TrimStart(s: string): (r: string)
    decreases |s|
  {
    if |s| > 0 && IsSpace(s[0]) then TrimStart(s[1..]) else s
  }

  /** Python's `s.rstrip()`. */
  function TrimEnd(s: string): (r: string)
    decreases |s|
  {
    if |s| > 0 && IsSpace(s[|s| - 1]) then TrimEnd(s[..|s| - 1]) else s
  }

  /** Python's `s.strip()`. */
  function Strip(s: string): string {
    TrimEnd(TrimStart(s))
  }

  lemma {:induction false} TrimStartEmptyIffBlank(s: string)
    ensures TrimStart(s) == [] <==> IsBlank(s)
    decreases |s|
  {
    if |s| > 0 && IsSpace(s[0]) {
      TrimStartEmptyIffBlank(s[1..]);
      assert IsBlank(s) <==> IsBlank(s[1..]) by {
        if IsBlank(s[1..]) {
          forall i | 0 <= i < |s| ensures IsSpace(s[i]) {
            if i > 0 { assert s[i] == s[1..][i - 1]; }
          }
        }
      }
    } else if |s| > 0 {
      assert !IsSpace(s[0]);
    }
  }

  lemma {:induction false} TrimEndEmptyIffBlank(s: string)
    ensures TrimEnd(s) == [] <==> IsBlank(s)
    decreases |s|
  {
    if |s| > 0 && IsSpace(s[|s| - 1]) {
      var init := s[..|s| - 1];
      TrimEndEmptyIffBlank(init);
      assert IsBlank(s) <==> IsBlank(init) by {
        if IsBlank(init) {
          forall i | 0 <= i < |s| ensures IsSpace(s[i]) {
            if i < |s| - 1 { assert s[i] == init[i]; }
          }
        }
      }
    } else if |s| > 0 {
      assert !IsSpace(s[|s| - 1]);
    }
  }

  /** `not s.strip()` holds exactly when every character of `s` is whitespace. */
  lemma StripEmptyIffBlank(s: string)
    ensures Strip(s) == [] <==> IsBlank(s)
  {
    TrimStartEmptyIffBlank(s);
    TrimEndEmptyIffBlank(TrimStart(s));
    if TrimStart(s) != [] {
      TrimStartNonBlankHead(s);
    }
  }

  /** A non-empty left-trim starts with a non-space, so it is not blank. */
  lemma {:induction false} TrimStartNonBlankHead(s: string)
    requires TrimStart(s) != []
    ensures !IsSpace(TrimStart(s)[0])
    decreases |s|
  {
    if |s| > 0 && IsSpace(s[0]) {
      TrimStartNonBlankHead(s[1..]);
    }
  }

  /**
   * Python's `s.split(".")[-1]`: the text after the last '.', or all of `s`
   * when it has no '.'.
   */
  function AfterLastDot(s: string): (r: string)
    ensures '.' !in r
    ensures EndsWith(s, r)
    ensures |r| < |s| ==> s[|s| - |r| - 1] == '.'
    decreases |s|
  {
    if |s| == 0 then ""
    else if s[|s| - 1] == '.' then ""
    else
      var init := s[..|s| - 1];
      var r := AfterLastDot(init) + [s[|s| - 1]];
      assert s[|s| - |r|..] == init[|init| - |r| + 1..] + [s[|s| - 1]];
      r
  }

  lemma {:induction false} AfterLastDotOfDotted(base: string, ext: string)
    requires '.' !in ext
    ensures AfterLastDot(base + "." + ext) == ext
    decreases |ext|
  {
    var s := base + "." + ext;
    if |ext| > 0 {
      var init := ext[..|ext| - 1];
      assert s[..|s| - 1] == base + "." + init;
      assert s[|s| - 1] == ext[|ext| - 1];
      AfterLastDotOfDotted(base, init);
      assert init + [ext[|ext| - 1]] == ext;
    }
  }

  lemma {:induction false} AfterLastDotOfDotless(s: string)
    requires '.' !in s
    ensures AfterLastDot(s) == s
    decreases |s|
  {
    if |s| > 0 {
      var init := s[..|s| - 1];
      AfterLastDotOfDotless(init);
      assert init + [s[|s| - 1]] == s;
    }
  }

  /** Python's `c.lower()` on ASCII letters; other characters are kept. */
  function AsciiLower(s: string): (r: string)
    ensures |r| == |s|
    ensures forall i :: 0 <= i < |s| ==> r[i] == (if 'A' <= s[i] <= 'Z' then s[i] - 'A' + 'a' else s[i])
  {
    seq(|s|, i requires 0 <= i < |s| => if 'A' <= s[i] <= 'Z' then s[i] - 'A' + 'a' else s[i])
  }

  /**
   * Python's `s.replace(pat, rep)`: every non-overlapping occurrence of
   * `pat`, scanned left to right, is replaced.
   */
  function ReplaceAll(s: string, pat: string, rep: string): string
    requires |pat| > 0
    decreases |s|
  {
    if |s| < |pat| then s
    else if s[..|pat|] == pat then rep + ReplaceAll(s[|pat|..], pat, rep)
    else [s[0]] + ReplaceAll(s[1..], pat, rep)
  }
}

=== FILE: wrappers.dfy ===
/** Optional values and results shared by every module of the model. */
module Wrappers {

  /** An optional value; `None` stands for Python's `None` or a missing key. */
  datatype Option<+T> = None | Some(value: T) {

    /** The value, or `default` when there is none (Python's `dict.get(key, default)`). */
    function GetOr(default: T): T {
      match this
      case Some(v) => v
      case None => default
    }
  }

  /** A value or the error an operating-system call raised. */
  datatype Result<+T, +E> = Ok(value: T) | Err(error: E)
}
